=== FILE: README.md ===
# QOF visualisation: geocoding and dashboard selection logic in Dafny

This project models the sequential logic of the QOF visualisation repository
and proves properties of it. The logic falls into three groups.

- **Geocoding.** GP practices are located through a geocoding service in two
  places, `batch_geocode.py` and its older twin `get_gp_coordinates.py`.
  - `geocode_one` tries a practice's short address first, then its long one.
  - Each address gets at most `retries` requests.
  - An "OK" status locates the practice. "ZERO_RESULTS" gives up on that
    address. Any other status sleeps `2**attempt * 0.1` s and asks again.
  - The batch splits its results into located and unlocated practices. It
    re-tries the unlocated ones one at a time through the synchronous
    `googlemaps` client (`check_addresses_sync`, `get_coordinates_sync`).
  - The synchronous pass is modelled as written, reading the longitude as
    `loc["lon"]`. A variant reading `loc["lng"]` sits beside it (see
    "Findings").
  - The older script instead fills in its `(code, None, None)` tuples in a
    loop.
  - `find_target_files` picks extracted CSV files by name.
- **Dashboard selection rules** (`state_management.py`, `app.py`).
  - Which bucket options are enabled, and which bucket value is selected.
  - How `sync_dropdowns` reconciles the indicator dropdown and builds the
    bucket options.
  - How `prepare_plot_data` and `prepare_comparison_data` build their rows.
- **Constants** (`constants.py`).
  - The five achievement buckets. Read as conditions on
    `percentage_patients_achieved`, they partition the percentages.
  - `DEFAULT_BUCKET`.
  - The organisation-level tables.

## Modules

| module | contents |
|---|---|
| `Wrappers` | `Option` and `Result` |
| `Strings` | code-point string order (Python's `<` on `str`), ASCII `str.lower`, `in` on strings, `str(n)` |
| `Lists` | order-preserving subsequence, `Filter` |
| `Sorting` | `sorted(..., reverse=True)` with and without `set(...)` |
| `CoordDataclasses` | `PracticeCoords`, `PracticeAdd`, and the `PracticeCoords \| PracticeAdd` union (`Geocoded`) |
| `Retry` | the retry loop for one address, the short-then-long fallback, and a pass over a list of practices |
| `GeocodeService` | the JSON endpoint's replies and the synchronous client's responses, with how each client reads them |
| `BatchGeocode` | `batch_geocode.py` |
| `GpCoordinates` | `get_gp_coordinates.py` |
| `Constants` | `constants.py` |
| `StateManagement` | `state_management.py` |
| `App` | the pure logic of `sync_dropdowns` and `prepare_comparison_data` in `app.py` |

### How the model works

- **The geocoding services are oracles.** `ask(t, a)` is the service's
  response to request number `t` of the current phase, for address `a`. So a
  service may answer the same address differently over time, as a
  rate-limited service does.
- **Each run keeps a trace.** A tier run records its responses in request
  order and its sleeps in units of 100 ms, so the sleep after attempt `k` is
  `2^k` units. The proofs count requests and check the backoff schedule
  against this trace.
- **Concurrency becomes a sequential pass.** `asyncio.gather` runs the
  coroutines concurrently but returns their results in input order. The model
  runs the records one after another in list order, and each record's
  requests follow those of the record before it.
- **Database queries become parameters.** The indicator and year lists and
  `check_bucket_has_data` are fields of a `Catalogue`. A DataFrame is a
  sequence of row records.

## Model

| member | source | states |
|---|---|---|
| Retry.Attempts | src/QOF_visualisation/batch_geocode.py:62-74 | Retry loop for one address. The responses are the service's answers to consecutive requests for that address, and there are at most `retries` of them. Only responses that are neither a location nor a "no match" are retried. The tier result follows the last response. An exhausted tier used the whole budget. Every retried response, the last one included, is followed by one sleep of `2^attempt` units. |
| Retry.TierDelaysIncrease | src/QOF_visualisation/batch_geocode.py:74 | The backoff sleeps of a tier strictly increase. |
| Retry.TransientThenHit | src/QOF_visualisation/batch_geocode.py:62-71 | Suppose the service fails transiently `k < retries` times and then locates. Then the tier finds that location after exactly `k + 1` requests and `k` sleeps. |
| Retry.MissEndsTier | src/QOF_visualisation/batch_geocode.py:72-73 | A "no match" on the first request ends the tier with one request and no sleep. |
| Retry.Fallback | src/QOF_visualisation/batch_geocode.py:60-76 | The short address's responses come first. The long address is asked exactly when the short one found nothing, and each tier is the retry loop for its address. There are at most `2 * retries` requests per record. The outcome is the location the first successful tier found, with the practice's own code; otherwise the practice is handed back. |
| Retry.SequenceRecord | src/QOF_visualisation/batch_geocode.py:84-87 | Result `i` of a pass is what the per-record step made of practice `i`. That step starts right after the requests of practices `0 .. i - 1`. |
| Retry.SequenceRequests | src/QOF_visualisation/batch_geocode.py:84-87 | A pass whose records each cost at most `b` requests costs at most `b` per practice. |
| Retry.SequenceAnswers | src/QOF_visualisation/batch_geocode.py:84-87 | If each step answers for its own practice, each result of the pass answers for the practice at the same position. |
| BatchGeocode.GeocodeOne | src/QOF_visualisation/batch_geocode.py:53-76 | `geocode_one` makes at most `2 * retries` requests. It asks the long address exactly when the short one got no "OK". A located result carries the practice's code, and an unlocated practice comes back unchanged. |
| BatchGeocode.GeocodeOneReplies | src/QOF_visualisation/batch_geocode.py:60-76 | The same, read on the replies. Each tier retries only statuses other than "OK" and "ZERO_RESULTS" and sleeps after each such status. No "OK" comes before the last reply. The practice is located exactly when the last reply is "OK", and then with that reply's `lat` and `lng`. |
| BatchGeocode.GetCoordinatesSync | src/QOF_visualisation/batch_geocode.py:33-50 | `get_coordinates_sync` (longitude read as `lng`). It makes at most `retries` calls, to consecutive requests for the address. An empty first result hands the practice back after one call. Every response before the last one raised, or lacked `lat` or `lng`, so an empty result on any call ends the call. A located result takes `lat` and `lng` from the last response. Stopping early means the last response was empty. There is one sleep of `2^k` units after every call that raised, and none otherwise. |
| BatchGeocode.SyncCallWith | src/QOF_visualisation/batch_geocode.py:39-50 | One synchronous call under a given reading of the responses. It makes at most `retries` calls, to consecutive requests for the address. A first response read as a miss hands the practice back after one call. Every response before the last one was read as transient. A located result comes from the last response read as a hit. Stopping early without a location means the last response was read as a miss. There is one sleep of `2^k` units after every response read as transient, and none otherwise. |
| BatchGeocode.GetCoordinatesSyncAsWritten | src/QOF_visualisation/batch_geocode.py:33-50 | `get_coordinates_sync` as written, reading `loc["lon"]`. It makes at most `retries` calls, to consecutive requests for the address. An empty first result hands the practice back after one call. Every response before the last one raised, or lacked `lat` or `lon`. A located result needs both `lat` and `lon` in the last response and takes its coordinates from them. Stopping early without a location means the last response was empty. There is one sleep of `2^k` units after every call that raised, and none otherwise. |
| BatchGeocode.RaisedThenEmpty | src/QOF_visualisation/batch_geocode.py:39-50 | After `k < retries` calls that raised, an empty result on the next call hands the practice back after `k + 1` calls and `k` sleeps. |
| BatchGeocode.LonKeyNeverLocates | src/QOF_visualisation/batch_geocode.py:45-47 | As written, a service whose locations carry `lat` and `lng` never gets a practice located. |
| BatchGeocode.GetCoordinatesSyncLocates | src/QOF_visualisation/batch_geocode.py:42-46 | Reading `lng`, a well-formed location on the first call locates the practice after one call. |
| BatchGeocode.LonKeyCounterexample | src/QOF_visualisation/batch_geocode.py:46 | For one concrete service and practice, the as-written reading hands the practice back while the `lng` reading locates it. |
| BatchGeocode.CheckAddressesSync | src/QOF_visualisation/batch_geocode.py:26-30 | `check_addresses_sync`, under either reading of the longitude, calls with the long address exactly when the short-address call handed the practice back. It makes at most six requests, keeps the code, and hands back the practice itself when both calls fail. |
| BatchGeocode.CheckAddressesSyncIsFallback | src/QOF_visualisation/batch_geocode.py:26-30 | `check_addresses_sync` is the same short-then-long fallback as `geocode_one`, with three attempts per address. |
| BatchGeocode.CheckAddressesSyncLocatesNothing | src/QOF_visualisation/batch_geocode.py:26-30 | As written, against a service whose locations carry `lat` and `lng`, `check_addresses_sync` hands every practice back. |
| BatchGeocode.CheckAddressesSyncLocatesAll | src/QOF_visualisation/batch_geocode.py:26-30 | Reading `lng`, against a service that answers every request with a well-formed location, `check_addresses_sync` locates the practice with its first request. |
| BatchGeocode.GeocodeAll | src/QOF_visualisation/batch_geocode.py:84-87 | Phase 1 gives one result per practice, in list order, each answering for its practice. It makes at most `2 * retries` requests per practice. |
| BatchGeocode.Recover | src/QOF_visualisation/batch_geocode.py:96-103 | Phase 2, under either reading of the longitude, gives one result per handed-back practice, in order. It makes at most six requests per practice. |
| BatchGeocode.PartitionComplete | src/QOF_visualisation/batch_geocode.py:88-93 | `succesful` and `unsuccesful` together hold every result exactly once. Their lengths sum to the number of results, and their codes are the results' codes as a multiset. |
| BatchGeocode.PartitionMembers | src/QOF_visualisation/batch_geocode.py:88-93 | A record is in `succesful` exactly when it was located. A practice is in `unsuccesful` exactly when it was handed back. |
| BatchGeocode.UnsuccessfulSubsequence | src/QOF_visualisation/batch_geocode.py:91-93 | The handed-back practices are a subsequence of the input in input order, and the results carry the input's codes. |
| BatchGeocode.Combine | src/QOF_visualisation/batch_geocode.py:96-105 | The recovery loop. The phase-1 successes stay as a prefix of `succesful`. `failed` is a subsequence of the phase-1 failures. `len(succesful) + len(failed)` is the input length, and the codes are the input's codes as a multiset. Each practice phase 2 located is in the part of `succesful` after the phase-1 successes, and each practice it handed back is in `failed`. Conversely, that part of `succesful` holds only practices phase 2 located, and `failed` holds only practices phase 2 handed back. |
| BatchGeocode.RecoveryPlacement | src/QOF_visualisation/batch_geocode.py:99-105 | The practice at position `i` of phase 2 goes to its successes when located and to its failures when handed back, and both lists hold nothing else. |
| BatchGeocode.BatchGeocode | src/QOF_visualisation/batch_geocode.py:79-105 | `_batch_geocode_async` end to end as written, with phase 2 reading `loc["lon"]`. The same facts, stated from the practice list: phase 2 runs on the phase-1 failures, what it locates is appended to `succesful`, and what it hands back is exactly `failed`. |
| BatchGeocode.BatchGeocodeCorrected | src/QOF_visualisation/batch_geocode.py:79-105 | `_batch_geocode_async` with phase 2 reading `loc["lng"]`. The same facts, stated from the practice list: phase 2 runs on the phase-1 failures, what it locates is appended to `succesful`, and what it hands back is exactly `failed`. |
| BatchGeocode.AllUncoded | src/QOF_visualisation/batch_geocode.py:88-93 | When every result hands its practice back, `succesful` is empty and `unsuccesful` is the practices themselves, in order. |
| BatchGeocode.AllCoded | src/QOF_visualisation/batch_geocode.py:91-93 | When every result is located, `unsuccesful` is empty. |
| BatchGeocode.RecoveryLocatesNothing | src/QOF_visualisation/batch_geocode.py:95-105 | As written, against a service whose locations carry `lat` and `lng`, the returned `succesful` and `failed` are exactly phase 1's located and handed-back lists. |
| BatchGeocode.RecoveryLocatesAll | src/QOF_visualisation/batch_geocode.py:95-105 | Reading `lng`, against a service that answers every request with a well-formed location, `failed` is empty and every practice is located. |
| BatchGeocode.NoPracticeInBoth | src/QOF_visualisation/batch_geocode.py:88-105 | With distinct practice codes, no practice is both in `succesful` and in `failed`. |
| GpCoordinates.GeocodeOne | src/QOF_visualisation/get_gp_coordinates.py:96-120 | The older `geocode_one` makes at most `2 * RETRIES` requests and asks the long address exactly when the short one got no "OK". Its result answers for the address row. |
| GpCoordinates.GeocodeOneRow | src/QOF_visualisation/get_gp_coordinates.py:113-120 | The tuple keeps the row's code. `lat` and `lng` are both present or both absent. They are present exactly when a tier found a location, and otherwise the tuple is `(code, None, None)`. |
| GpCoordinates.GeocodeOneRowReplies | src/QOF_visualisation/get_gp_coordinates.py:105-120 | Read on the replies: each tier is retried only on statuses other than "OK" and "ZERO_RESULTS". There are at most six replies, and no "OK" comes before the last. The tuple is located exactly when the last reply is "OK", and then with its `lat` and `lng`. |
| GpCoordinates.BatchGeocodeRows | src/QOF_visualisation/get_gp_coordinates.py:123-132 | `batch_geocode` gives one tuple per input row, in input order. Tuple `i` carries row `i`'s code, with both coordinates or neither. |
| GpCoordinates.BatchGeocodeRowsRecord | src/QOF_visualisation/get_gp_coordinates.py:123-132 | Tuple `i` is `geocode_one` on row `i`, started after the requests of rows `0 .. i - 1`. |
| GpCoordinates.GetCoordinatesSync | src/QOF_visualisation/get_gp_coordinates.py:77-93 | The older `get_coordinates_sync` makes at most `retries` calls. An empty first result gives `Coordinates(None, None)` after one call with no sleep. Every response before the last one raised, or lacked `lat` or `lng`, so an empty result on any call ends the call. Coordinates are both present or both absent, and when present they come from the last response's `lat` and `lng`. Stopping early without coordinates means the last response was empty. The sleeps are `2^k` units, one after every failed call. |
| GpCoordinates.RescueOne | src/QOF_visualisation/get_gp_coordinates.py:165-173 | One iteration of the fallback loop changes an entry only by filling both coordinates of an entry that had neither. It keeps the code and makes at most two calls' worth of requests. |
| GpCoordinates.RescueOneCalls | src/QOF_visualisation/get_gp_coordinates.py:165-173 | An entry with a coordinate makes no call. Otherwise the short address is tried first, and the long address exactly when the short call gave `lat is None`. An entry stays as it was only when both calls gave `Coordinates(None, None)`. A changed entry takes the last call's coordinates. |
| GpCoordinates.FillIn | src/QOF_visualisation/get_gp_coordinates.py:165-174 | The loop over `enumerate(coords)`. It keeps the length, entry `j` is what the loop body made of entry `j`, and `rescued` is the number of changed entries. The requests stay within the per-entry bound. They also run on: entry 0 starts at request 0, each later entry where the one before stopped, and the total is where the last one stopped. |
| GpCoordinates.ChainStep | src/QOF_visualisation/get_gp_coordinates.py:165-174 | One more entry keeps the requests running on: its first request is the previous total, and the new total adds its own requests. |
| GpCoordinates.SyncFallback | src/QOF_visualisation/get_gp_coordinates.py:163-174 | The sync fallback of `main`. It keeps the length and each code and changes only entries with neither coordinate, each to the coordinates a call found. `rescued` counts the changed entries. The calls for entry `j + 1` start where those for entry `j` stopped, beginning at request 0. |
| GpCoordinates.RescueKeepsShape | src/QOF_visualisation/get_gp_coordinates.py:165-173 | An entry with both coordinates or neither keeps that shape. |
| GpCoordinates.SuffixCsv | src/QOF_visualisation/get_gp_coordinates.py:46 | `Path.suffix` is `.csv` exactly when the name ends in `.csv` after at least one other character. |
| GpCoordinates.FindTargetFiles | src/QOF_visualisation/get_gp_coordinates.py:42-47 | `find_target_files` keeps an order-preserving subsequence of the files. Every kept file has suffix `.csv` and a lower-cased name containing a term, and every file meeting both conditions is kept, as many times as it occurs in the input. |
| GpCoordinates.NoTermsNoFiles | src/QOF_visualisation/get_gp_coordinates.py:42-47 | With no match terms, no file is kept. |
| Constants.BucketSqlIsInterval | src/QOF_visualisation/visualization/constants.py:30-36 | Each bucket's SQL text is the rendering of an interval `lower <= x < upper` on the percentage: below 20, 20-40, 40-60, 60-80, from 80. |
| Constants.BucketOf | src/QOF_visualisation/visualization/constants.py:30-36 | Every non-NULL percentage lies in one bucket, and in no other. |
| Constants.BucketsDisjoint | src/QOF_visualisation/visualization/constants.py:30-36 | No percentage satisfies two bucket conditions. |
| Constants.BucketsCover | src/QOF_visualisation/visualization/constants.py:30-36 | A percentage satisfies some bucket condition exactly when it is not NULL. |
| Constants.BucketsContiguous | src/QOF_visualisation/visualization/constants.py:30-36 | Each bucket's upper bound is the next bucket's lower bound, and only the two end buckets are open. |
| Constants.LowerBoundsIncrease | src/QOF_visualisation/visualization/constants.py:30-36 | The lower bounds increase in key order: none, 20, 40, 60, 80. |
| Constants.DefaultBucketIsKey | src/QOF_visualisation/visualization/constants.py:30-37 | `DEFAULT_BUCKET` is a key of `BUCKET_SQL`, and no key repeats. |
| Constants.OrgTableLevels | src/QOF_visualisation/visualization/constants.py:21-27 | `ORG_TABLE` has exactly the levels Practice, PCN, Sub-ICB, ICB and Region, and maps "Practice" to the practice table. |
| StateManagement.GetEnabledBuckets | src/QOF_visualisation/visualization/state_management.py:50-59 | `get_enabled_buckets` keeps exactly the options not explicitly disabled, with `None` counting as enabled, in their original order. Each enabled option is kept as many times as it occurs, and no disabled option is kept. |
| StateManagement.EnabledValues | src/QOF_visualisation/visualization/state_management.py:50-59 | Filtering keeps exactly the values some enabled option carries. |
| StateManagement.GetEnabledBucketsIdempotent | src/QOF_visualisation/visualization/state_management.py:50-59 | Filtering the enabled options again changes nothing. |
| StateManagement.SelectBucketValue | src/QOF_visualisation/visualization/state_management.py:62-86 | `select_bucket_value` keeps a non-empty current value that an enabled option carries. Otherwise it takes the default if an enabled option carries it, otherwise the first enabled option's value. The result is `None` exactly when no option is enabled, and any other result is an enabled option's value. |
| StateManagement.FirstEnabledIsHead | src/QOF_visualisation/visualization/state_management.py:83-84 | `enabled_buckets[0]` is the first enabled option of the original list. |
| StateManagement.SelectIdempotent | src/QOF_visualisation/visualization/state_management.py:62-86 | Selecting again, with the selection as the current value, gives the same selection. |
| StateManagement.SelectIgnoresDisabled | src/QOF_visualisation/visualization/state_management.py:68-86 | Dropping the disabled options beforehand does not change the selection. |
| StateManagement.Groups | src/QOF_visualisation/visualization/state_management.py:102 | The group list holds exactly the non-NULL group descriptions, each as many times as there are rows with that description. |
| StateManagement.Matching | src/QOF_visualisation/visualization/state_management.py:109 | `filter(group_description == g)` keeps an order-preserving subsequence of the rows. Each row of group `g` is kept as many times as it occurs, no other row is kept, and the number kept is the number of rows with description `g`, which is how often `g` occurs in the group list. |
| StateManagement.Lookup | src/QOF_visualisation/visualization/state_management.py:108-115 | The `.item()` lookups succeed exactly when every group matches one row. The values are then each group's single row's column. Otherwise the error names the first group whose filter did not leave exactly one row. |
| StateManagement.PreparePlotData | src/QOF_visualisation/visualization/state_management.py:89-118 | On success, the groups are the non-NULL group descriptions sorted descending, and `Group` is that list twice. `Achievement` has `2 * len(groups)` entries: each group's organisation value, then each group's national value, in group order. On failure, the raising group is one of the groups and does not match exactly one row. |
| StateManagement.PlotDataSucceedsIff | src/QOF_visualisation/visualization/state_management.py:102-116 | `prepare_plot_data` succeeds exactly when no non-NULL group description repeats. |
| Sorting.SortDesc | src/QOF_visualisation/visualization/state_management.py:103 | `sorted(groups, reverse=True)` is descending and a permutation of its input. |
| Sorting.SortedSetDesc | src/QOF_visualisation/visualization/app.py:258-264 | `sorted(set(...), reverse=True)` is strictly descending and holds exactly the input's elements. |
| App.IndicatorOptions | src/QOF_visualisation/visualization/app.py:104-114 | One enabled option per indicator code, labelled and valued by the code, in order. |
| App.YearOptions | src/QOF_visualisation/visualization/app.py:117-120 | One enabled option per year, labelled `str(year)` and valued by the year, in order. |
| App.ReconcileIndicator | src/QOF_visualisation/visualization/app.py:112-115 | The indicator value is kept if it is on offer, else the first code on offer is taken, else `None`. `None` comes out exactly when nothing is on offer. |
| App.ReconcileIdempotent | src/QOF_visualisation/visualization/app.py:112-115 | Reconciling a reconciled value keeps it. |
| App.TableFor | src/QOF_visualisation/visualization/app.py:123 | A missing or empty level, or an unknown level, gives the practice table. A known level gives its own table. |
| App.BucketOptions | src/QOF_visualisation/visualization/app.py:126-131 | There is one option per `BUCKET_SQL` key, in key order. With an indicator and a year, an option is disabled exactly when the query finds no data for its condition. Without them, every option is disabled. |
| App.SyncDropdowns | src/QOF_visualisation/visualization/app.py:87-140 | The indicator options are the year's indicators, or all of them without a year, and the indicator value is one of them. The year value is unchanged, and the year options are all years in order. An indicator not on offer is replaced by the first one offered. There is one bucket option per key. No bucket is selected exactly when every bucket is disabled, and a selected bucket is enabled. An enabled truthy current bucket is kept. Otherwise the selection is the default bucket if it is enabled, else the first enabled bucket. |
| App.SelectionWithoutState | src/QOF_visualisation/visualization/app.py:133-138 | With the `None` current bucket the program passes, the selection is the default bucket when it is enabled, else the first enabled bucket, else none. |
| App.NoBucketWithoutSelection | src/QOF_visualisation/visualization/app.py:126-138 | Without a year, or with no indicator on offer, every bucket is disabled and none is selected. |
| App.SelectedBucketHasData | src/QOF_visualisation/visualization/app.py:126-138 | A selected bucket is a `BUCKET_SQL` key whose condition has data for the reconciled indicator and the chosen year, on the level's table. |
| App.FirstMatch | src/QOF_visualisation/visualization/app.py:271-277 | The first row of a group exists exactly when the frame has that group. It is the earliest row of that group. |
| App.Block | src/QOF_visualisation/visualization/app.py:270-279 | Each output row of a block is the row its group contributes. |
| App.BlockGroups | src/QOF_visualisation/visualization/app.py:270-291 | A block's groups are the sorted groups that the frame has, in sorted order. |
| App.BlockShape | src/QOF_visualisation/visualization/app.py:258-291 | Over the strictly descending group list, a block lists each distinct group of its frame once, strictly descending. |
| App.AllGroups | src/QOF_visualisation/visualization/app.py:258-264 | `all_groups` is strictly descending and holds exactly the groups of either frame. |
| App.PrepareComparisonBlocks | src/QOF_visualisation/visualization/app.py:267-291 | Organisation rows come from the organisation frame and national rows from the national frame, each row being what its group contributes. |
| App.PrepareComparisonData | src/QOF_visualisation/visualization/app.py:258-293 | The frame holds one row per distinct organisation group, then one row per distinct national group. Each block is in strictly descending group order and holds exactly its frame's groups. Each organisation row is built from the first row of its group in `org_df`, with the organisation name as source. Each national row is built from the first row of its group in `nat_df`, with "National Average" as source. |
| App.ComparisonShape | src/QOF_visualisation/visualization/app.py:258-293 | Each block lists its frame's distinct groups once each, strictly descending. Organisation rows take the achievement and organisation name of the first matching row. National rows take the first matching row's achievement and the label "National Average". |

## Left out

- Concurrency. The semaphore of `setup` and `geocode_one`, `asyncio.gather` and the `concurrent` setting become a sequential pass in input order. That pass is the order `gather` returns results in.
- HTTP failures in `geocode_one`. An exception from `session.get` or `r.json()` is not caught there. The model reads each reply by its status only and makes no claim about that path.
- Sleep durations. `time.sleep` and `asyncio.sleep` are not performed. The backoff sleeps are recorded as integers in units of 100 ms. The fixed 20 ms pause before each synchronous call is implied by the call count and not recorded.
- Floating point. Latitudes, longitudes and percentages are `real`. The coordinates are passed through untouched, and the bucket bounds are whole numbers.
- SQL, DuckDB, the Dash/Plotly figures and layout, file downloads and extraction, `create_address_list`, and `md_wrap`. These are engine, UI or I/O work with no logic of their own to model here.
- Strings.Lower: `str.lower` is modelled on the ASCII letters only; other characters are kept.
- GpCoordinates.SuffixCsv: `Path.suffix` is modelled on the final name component with the rule "from the last dot, unless the dot leads or ends the name". Newer Python versions refine that rule for names ending in a dot.
- GpCoordinates.SyncFallback: requires `len(coords) <= len(addresses)`. `main` builds `coords` from `addresses`, so the two have the same length. With a longer `coords`, `addresses[idx]` would raise, and that is not modelled.
- StateManagement.Enabled: a missing "disabled" key is treated as `disabled: None`, since both read as enabled.
- App.SyncDropdowns: the bucket value the callback reads from the callback context is a parameter. The callback declares no `State`, so `ctx.states.get("bucket.value")` is always `None` in the program, and the keep-current rule never applies there; `App.SelectionWithoutState` states the selection for that case.
- App.AllGroups: the group descriptions in the comparison frames are modelled as non-NULL. A NULL mixed with strings makes `sorted` raise.
- Constants.BucketSqlIsInterval: the three closed conditions are written as their source text with the shared middle text named `AND_BELOW`.
- The `GeocodeSettings` record and `setup` are not modelled beyond the retry count they carry.

## Findings

| source | as written | input that shows it | evidently intended | confidence | as-written member | corrected member |
|---|---|---|---|---|---|---|
| src/QOF_visualisation/batch_geocode.py:46 | `get_coordinates_sync` reads the longitude as `loc["lon"]`. Google's locations carry `lat` and `lng`, so the lookup raises `KeyError`. The `except Exception` catches it and retries, and after `retries` calls the practice is handed back. So the synchronous recovery never locates a practice. | The client answers every call with `{"lat": 51.5, "lng": -0.1}` for practice `A1`. As written, `A1` is handed back; reading `lng` locates it at `(51.5, -0.1)`. | Read `loc["lng"]`, as `geocode_one` on line 69 and `get_gp_coordinates.py` on line 89 do. | not executed | BatchGeocode.RecoveryLocatesNothing | BatchGeocode.RecoveryLocatesAll |

=== FILE: app.dfy ===
/**
 The pure logic of the dashboard's callbacks (visualization/app.py): the
 dropdown reconciliation inside `sync_dropdowns`, and the row building of
 `prepare_comparison_data`.

 The database queries the callbacks make become parameters: the indicator
 lists are a `Catalogue`, and `check_bucket_has_data` is the predicate
 `hasData(table, indicator, year, condition)`.
 */
module App {
  import opened Wrappers
  import opened Strings
  import opened Lists
  import opened Sorting
  import opened Constants
  import opened StateManagement

  /** A dropdown entry built by `make_dropdown_opt`: never disabled. */
  datatype DropdownOption<T> = DropdownOption(text: string, value: T, disabled: Option<bool>)

  /**
   What the queries report: `ALL_YEARS`, `ALL_INDS`, `get_indicators_by_year`
   and `check_bucket_has_data`.
   */
  datatype Catalogue = Catalogue(
    allYears: seq<int>,
    allInds: seq<string>,
    indsByYear: int -> seq<string>,
    hasData: (string, string, int, string) -> bool)

  /** What `sync_dropdowns` returns, in the order of its outputs. */
  datatype Dropdowns = Dropdowns(
    indOpts: seq<DropdownOption<string>>,
    indVal: Option<string>,
    yrOpts: seq<DropdownOption<int>>,
    yrVal: Option<int>,
    bucketOpts: seq<BucketOption>,
    bucketVal: Option<string>)

  /** `list(map(make_dropdown_opt, codes))` for indicator codes. */
  function IndicatorOptions(codes: seq<string>): (opts: seq<DropdownOption<string>>)
    ensures |opts| == |codes|
    ensures forall i :: 0 <= i < |codes| ==> opts[i] == DropdownOption(codes[i], codes[i], None)
  {
    if |codes| == 0 then [] else [DropdownOption(codes[0], codes[0], None)] + IndicatorOptions(codes[1..])
  }

  /** `list(map(make_dropdown_opt, years))`: the label is `str(year)`. */
  function YearOptions(years: seq<int>): (opts: seq<DropdownOption<int>>)
    ensures |opts| == |years|
    ensures forall i :: 0 <= i < |years| ==> opts[i] == DropdownOption(DecimalOf(years[i]), years[i], None)
  {
    if |years| == 0 then [] else [DropdownOption(DecimalOf(years[0]), years[0], None)] + YearOptions(years[1..])
  }

  /** The indicators offered: the given year's, or all of them when no year is chosen. */
  function ValidIndicators(cat: Catalogue, yrVal: Option<int>): seq<string>
  {
    if yrVal.Some? then cat.indsByYear(yrVal.value) else cat.allInds
  }

  /** Keep the chosen indicator if it is offered, else take the first offered, else none. */
  function ReconcileIndicator(indVal: Option<string>, valid: seq<string>): (r: Option<string>)
    ensures r.Some? ==> r.value in valid
    ensures r.None? <==> |valid| == 0
    ensures indVal.Some? && indVal.value in valid ==> r == indVal
    ensures !(indVal.Some? && indVal.value in valid) && |valid| > 0 ==> r == Some(valid[0])
  {
    if indVal.Some? && indVal.value in valid then indVal
    else if |valid| > 0 then Some(valid[0])
    else None
  }

  /** Reconciling an already reconciled indicator keeps it. */
  lemma ReconcileIdempotent(indVal: Option<string>, valid: seq<string>)
    ensures ReconcileIndicator(ReconcileIndicator(indVal, valid), valid) == ReconcileIndicator(indVal, valid)
  {
  }

  /**
   `ORG_TABLE.get(level_val or "Practice", <practice table>)`: a missing or
   empty level means "Practice", an unknown one the practice table.
   */
  function TableFor(levelVal: Option<string>): (table: string)
    ensures table in ORG_TABLE.Values
    ensures levelVal.None? || levelVal.value == "" ==> table == PRACTICE_TABLE
    ensures levelVal.Some? && levelVal.value in ORG_TABLE ==> table == ORG_TABLE[levelVal.value]
    ensures levelVal.Some? && levelVal.value !in ORG_TABLE ==> table == PRACTICE_TABLE
  {
    var level := if levelVal.None? || levelVal.value == "" then "Practice" else levelVal.value;
    assert ORG_TABLE["Practice"] == PRACTICE_TABLE;
    if level in ORG_TABLE then ORG_TABLE[level] else PRACTICE_TABLE
  }

  /**
   One option per bucket, labelled and valued by the bucket's key. With both
   an indicator and a year chosen, a bucket is disabled when the query finds
   no data for its condition; otherwise every bucket is disabled.
   */
  function BucketOptions(buckets: seq<Bucket>, cat: Catalogue, table: string, ind: Option<string>, yr: Option<int>): (opts: seq<BucketOption>)
    ensures |opts| == |buckets|
    ensures forall i :: 0 <= i < |buckets| ==> opts[i].text == buckets[i].key && opts[i].value == buckets[i].key
    ensures forall i :: 0 <= i < |buckets| ==>
              opts[i].disabled == if ind.Some? && yr.Some? then Some(!cat.hasData(table, ind.value, yr.value, buckets[i].sql)) else Some(true)
  {
    if |buckets| == 0 then []
    else
      var b := buckets[0];
      var disabled := if ind.Some? && yr.Some? then !cat.hasData(table, ind.value, yr.value, b.sql) else true;
      [BucketOption(b.key, b.key, Some(disabled))] + BucketOptions(buckets[1..], cat, table, ind, yr)
  }

  /**
   `sync_dropdowns`. `currentBucket` is the bucket value the callback reads
   from the callback context, passed in here. The callback declares no
   `State`, so the program always passes `None`: the selection is then the
   default bucket if it is enabled, else the first enabled bucket, else none.
   */
  function SyncDropdowns(cat: Catalogue, indVal: Option<string>, yrVal: Option<int>, levelVal: Option<string>,
                         currentBucket: Option<string>): (d: Dropdowns)
    ensures var valid := ValidIndicators(cat, yrVal);
            && |d.indOpts| == |valid|
            && (forall i :: 0 <= i < |valid| ==> d.indOpts[i].value == valid[i] && d.indOpts[i].disabled.None?)
            && (d.indVal.Some? ==> d.indVal.value in valid)
            && (d.indVal.None? <==> |valid| == 0)
            && (indVal.Some? && indVal.value in valid ==> d.indVal == indVal)
            && (!(indVal.Some? && indVal.value in valid) && |valid| > 0 ==> d.indVal == Some(valid[0]))
    ensures d.yrVal == yrVal
    ensures |d.yrOpts| == |cat.allYears| && forall i :: 0 <= i < |cat.allYears| ==> d.yrOpts[i].value == cat.allYears[i]
    ensures |d.bucketOpts| == |BUCKET_SQL|
    ensures forall i :: 0 <= i < |BUCKET_SQL| ==> d.bucketOpts[i].value == BUCKET_SQL[i].key
    ensures d.bucketVal.Some? ==> HasEnabled(d.bucketOpts, d.bucketVal.value)
    ensures d.bucketVal.None? <==> forall i :: 0 <= i < |d.bucketOpts| ==> !Enabled(d.bucketOpts[i])
    ensures KeepsCurrent(d.bucketOpts, currentBucket) ==> d.bucketVal == currentBucket
    ensures !KeepsCurrent(d.bucketOpts, currentBucket) && HasEnabled(d.bucketOpts, DEFAULT_BUCKET) ==>
              d.bucketVal == Some(DEFAULT_BUCKET)
    ensures !KeepsCurrent(d.bucketOpts, currentBucket) && !HasEnabled(d.bucketOpts, DEFAULT_BUCKET) && d.bucketVal.Some? ==>
              FirstEnabled(d.bucketOpts) < |d.bucketOpts| && d.bucketVal.value == d.bucketOpts[FirstEnabled(d.bucketOpts)].value
  {
    var valid := ValidIndicators(cat, yrVal);
    var ind := ReconcileIndicator(indVal, valid);
    var table := TableFor(levelVal);
    var opts := BucketOptions(BUCKET_SQL, cat, table, ind, yrVal);
    Dropdowns(IndicatorOptions(valid), ind, YearOptions(cat.allYears), yrVal, opts,
              SelectBucketValue(opts, currentBucket, DEFAULT_BUCKET))
  }

  /**
   The selection as the program makes it, with no current bucket: the
   default bucket when it is enabled, else the first of the enabled
   buckets, else none.
   */
  lemma SelectionWithoutState(cat: Catalogue, indVal: Option<string>, yrVal: Option<int>, levelVal: Option<string>)
    ensures var d := SyncDropdowns(cat, indVal, yrVal, levelVal, None);
            var enabled := GetEnabledBuckets(d.bucketOpts);
            && (HasEnabled(d.bucketOpts, DEFAULT_BUCKET) ==> d.bucketVal == Some(DEFAULT_BUCKET))
            && (!HasEnabled(d.bucketOpts, DEFAULT_BUCKET) && |enabled| > 0 ==> d.bucketVal == Some(enabled[0].value))
            && (|enabled| == 0 ==> d.bucketVal.None?)
  {
    var d := SyncDropdowns(cat, indVal, yrVal, levelVal, None);
    FirstEnabledIsHead(d.bucketOpts);
  }

  /** Without a year, or with no indicator on offer, every bucket is disabled and none is selected. */
  lemma NoBucketWithoutSelection(cat: Catalogue, indVal: Option<string>, yrVal: Option<int>, levelVal: Option<string>,
                                 currentBucket: Option<string>)
    requires yrVal.None? || |ValidIndicators(cat, yrVal)| == 0
    ensures var d := SyncDropdowns(cat, indVal, yrVal, levelVal, currentBucket);
            |d.bucketOpts| == |BUCKET_SQL| && d.bucketVal.None?
  {
    var d := SyncDropdowns(cat, indVal, yrVal, levelVal, currentBucket);
    assert forall i :: 0 <= i < |d.bucketOpts| ==> !Enabled(d.bucketOpts[i]);
  }

  /**
   A selected bucket is one of the `BUCKET_SQL` keys, and the query found
   data for its condition, for the reconciled indicator and the chosen year
   on the level's table.
   */
  lemma SelectedBucketHasData(cat: Catalogue, indVal: Option<string>, yrVal: Option<int>, levelVal: Option<string>,
                              currentBucket: Option<string>)
    ensures var d := SyncDropdowns(cat, indVal, yrVal, levelVal, currentBucket);
            d.bucketVal.Some? ==>
              d.indVal.Some? && yrVal.Some? &&
              exists i :: 0 <= i < |BUCKET_SQL| && BUCKET_SQL[i].key == d.bucketVal.value &&
                cat.hasData(TableFor(levelVal), d.indVal.value, yrVal.value, BUCKET_SQL[i].sql)
  {
    var d := SyncDropdowns(cat, indVal, yrVal, levelVal, currentBucket);
    if d.bucketVal.Some? {
      var i :| 0 <= i < |d.bucketOpts| && d.bucketOpts[i].value == d.bucketVal.value && Enabled(d.bucketOpts[i]);
      assert d.bucketOpts[i].value == BUCKET_SQL[i].key;
    }
  }

  /** One row of `org_df` or `nat_df`. */
  datatype AchRow = AchRow(group: string, achievement: Option<real>, orgName: string)

  /** One row of the frame `prepare_comparison_data` returns. */
  datatype ComparisonRow = ComparisonRow(group: string, achievement: Option<real>, source: string)

  const NATIONAL_SOURCE: string := "National Average"

  /** The `group_description` column. */
  function GroupsOf(df: seq<AchRow>): (gs: seq<string>)
    ensures |gs| == |df|
    ensures forall i :: 0 <= i < |df| ==> gs[i] == df[i].group
  {
    if |df| == 0 then [] else [df[0].group] + GroupsOf(df[1..])
  }

  /** The position of the first row of group `g`; `|df|` when there is none. */
  function FirstMatchIndex(df: seq<AchRow>, g: string): (k: nat)
    ensures k <= |df|
    ensures forall j :: 0 <= j < k ==> df[j].group != g
    ensures k < |df| ==> df[k].group == g
  {
    if |df| == 0 then 0
    else if df[0].group == g then 0
    else 1 + FirstMatchIndex(df[1..], g)
  }

  /** `df.filter(group_description == g)[0]`: the first row of group `g`, if any. */
  function FirstMatch(df: seq<AchRow>, g: string): (m: Option<AchRow>)
    ensures m.None? <==> g !in GroupsOf(df)
    ensures m.Some? ==> exists k :: 0 <= k < |df| && df[k] == m.value && df[k].group == g &&
                                    forall j :: 0 <= j < k ==> df[j].group != g
  {
    var k := FirstMatchIndex(df, g);
    if k < |df| then Some(df[k])
    else
      assert forall i :: 0 <= i < |df| ==> GroupsOf(df)[i] != g;
      None
  }

  /** The row a group contributes to one block, if the frame has that group. */
  function BlockRow(df: seq<AchRow>, g: string, national: bool): Option<ComparisonRow>
  {
    match FirstMatch(df, g)
    case None => None
    case Some(m) => Some(ComparisonRow(g, m.achievement, if national then NATIONAL_SOURCE else m.orgName))
  }

  /** One loop of `prepare_comparison_data`: a row for each group in `gs` that `df` has. */
  function Block(df: seq<AchRow>, gs: seq<string>, national: bool): (rows: seq<ComparisonRow>)
    ensures |rows| <= |gs|
    ensures forall i :: 0 <= i < |rows| ==> BlockRow(df, rows[i].group, national) == Some(rows[i])
  {
    if |gs| == 0 then []
    else
      var rest := Block(df, gs[1..], national);
      match BlockRow(df, gs[0], national)
      case None => rest
      case Some(r) => [r] + rest
  }

  /**
   The group column of some output rows: `GroupsOf` for `ComparisonRow`, a
   separate record from `AchRow` with no supertype in common.
   */
  function RowGroups(rows: seq<ComparisonRow>): (gs: seq<string>)
    ensures |gs| == |rows|
    ensures forall i :: 0 <= i < |rows| ==> gs[i] == rows[i].group
  {
    if |rows| == 0 then [] else [rows[0].group] + RowGroups(rows[1..])
  }

  /** A block's groups are the groups of `gs` that `df` has, in the order of `gs`. */
  lemma {:induction false} BlockGroups(df: seq<AchRow>, gs: seq<string>, national: bool)
    ensures IsSubsequence(RowGroups(Block(df, gs, national)), gs)
    ensures forall g :: g in RowGroups(Block(df, gs, national)) <==> g in gs && g in GroupsOf(df)
  {
    if |gs| > 0 {
      BlockGroups(df, gs[1..], national);
      var rest := Block(df, gs[1..], national);
      if BlockRow(df, gs[0], national).Some? {
        var r := BlockRow(df, gs[0], national).value;
        assert Block(df, gs, national) == [r] + rest;
        assert RowGroups([r] + rest) == [gs[0]] + RowGroups(rest);
      } else {
        SubsequenceOfTail(RowGroups(rest), gs);
      }
    }
  }

  /** A subsequence of a strictly descending list is strictly descending. */
  lemma {:induction false} SubsequenceStrictlyDesc(a: seq<string>, b: seq<string>)
    requires IsSubsequence(a, b) && StrictlyDesc(b)
    ensures StrictlyDesc(a)
  {
    if |a| > 0 {
      assert |b| > 0;
      if a[0] == b[0] {
        SubsequenceStrictlyDesc(a[1..], b[1..]);
        SubsequenceMembers(a[1..], b[1..]);
        forall i, j | 0 <= i < j < |a|
          ensures Lt(a[j], a[i])
        {
          if i > 0 {
            assert a[1..][j - 1] == a[j] && a[1..][i - 1] == a[i];
          } else {
            assert a[j] == a[1..][j - 1];
            assert a[j] in a[1..];
            var k :| 0 <= k < |b[1..]| && b[1..][k] == a[j];
            assert b[k + 1] == a[j];
          }
        }
      } else {
        SubsequenceStrictlyDesc(a, b[1..]);
      }
    }
  }

  /** A list without repeats has as many elements as the set of its elements. */
  lemma {:induction false} DistinctCardinality(s: seq<string>)
    requires StrictlyDesc(s)
    ensures |set x | x in s| == |s|
  {
    if |s| > 0 {
      DistinctCardinality(s[1..]);
      assert (set x | x in s) == {s[0]} + (set x | x in s[1..]);
      assert s[0] !in s[1..] by {
        forall j | 0 <= j < |s[1..]|
          ensures s[1..][j] != s[0]
        {
          assert Lt(s[j + 1], s[0]);
        }
      }
    }
  }

  /**
   Over a strictly descending list holding every group of `df`, the block
   has one row per distinct group of `df`, in strictly descending order.
   */
  lemma BlockShape(df: seq<AchRow>, gs: seq<string>, national: bool)
    requires StrictlyDesc(gs)
    requires forall g :: g in GroupsOf(df) ==> g in gs
    ensures StrictlyDesc(RowGroups(Block(df, gs, national)))
    ensures |Block(df, gs, national)| == |set g | g in GroupsOf(df)|
  {
    var groups := RowGroups(Block(df, gs, national));
    BlockGroups(df, gs, national);
    SubsequenceStrictlyDesc(groups, gs);
    DistinctCardinality(groups);
    assert (set x | x in groups) == (set g | g in GroupsOf(df));
  }

  /** `sorted(set(org groups + nat groups), reverse=True)`. */
  function AllGroups(orgDf: seq<AchRow>, natDf: seq<AchRow>): (gs: seq<string>)
    ensures StrictlyDesc(gs)
    ensures forall g :: g in gs <==> g in GroupsOf(orgDf) || g in GroupsOf(natDf)
  {
    SortedSetDesc(GroupsOf(orgDf) + GroupsOf(natDf))
  }

  /** The output split into its two blocks: the organisation's rows, then the national rows. */
  datatype Comparison = Comparison(orgRows: seq<ComparisonRow>, natRows: seq<ComparisonRow>)

  /** `prepare_comparison_data`, with the frame it builds kept as its two blocks. */
  function PrepareComparisonBlocks(orgDf: seq<AchRow>, natDf: seq<AchRow>): (c: Comparison)
    ensures forall i :: 0 <= i < |c.orgRows| ==> BlockRow(orgDf, c.orgRows[i].group, false) == Some(c.orgRows[i])
    ensures forall i :: 0 <= i < |c.natRows| ==> BlockRow(natDf, c.natRows[i].group, true) == Some(c.natRows[i])
  {
    var gs := AllGroups(orgDf, natDf);
    Comparison(Block(orgDf, gs, false), Block(natDf, gs, true))
  }

  /**
   The frame `prepare_comparison_data` returns: first one organisation row
   per distinct group of `orgDf`, then one national row per distinct group
   of `natDf`, each block in strictly descending group order, each row
   built from the first row of its group in its own frame.
   */
  function PrepareComparisonData(orgDf: seq<AchRow>, natDf: seq<AchRow>): (rows: seq<ComparisonRow>)
    ensures var k := |set g | g in GroupsOf(orgDf)|;
            && |rows| == k + |set g | g in GroupsOf(natDf)|
            && StrictlyDesc(RowGroups(rows[..k]))
            && StrictlyDesc(RowGroups(rows[k..]))
            && (forall g :: g in RowGroups(rows[..k]) <==> g in GroupsOf(orgDf))
            && (forall g :: g in RowGroups(rows[k..]) <==> g in GroupsOf(natDf))
            && (forall i :: 0 <= i < k ==> BlockRow(orgDf, rows[i].group, false) == Some(rows[i]))
            && (forall i :: k <= i < |rows| ==> BlockRow(natDf, rows[i].group, true) == Some(rows[i]))
  {
    var c := PrepareComparisonBlocks(orgDf, natDf);
    ComparisonShape(orgDf, natDf);
    var rows := c.orgRows + c.natRows;
    assert rows[..|c.orgRows|] == c.orgRows && rows[|c.orgRows|..] == c.natRows;
    rows
  }

  /**
   The shape of the comparison frame: each block lists its frame's distinct
   groups once each, strictly descending; organisation rows carry the first
   matching row's achievement and organisation name, national rows the
   first matching row's achievement and the label "National Average".
   */
  lemma ComparisonShape(orgDf: seq<AchRow>, natDf: seq<AchRow>)
    ensures var c := PrepareComparisonBlocks(orgDf, natDf);
            && StrictlyDesc(RowGroups(c.orgRows))
            && StrictlyDesc(RowGroups(c.natRows))
            && |c.orgRows| == |set g | g in GroupsOf(orgDf)|
            && |c.natRows| == |set g | g in GroupsOf(natDf)|
            && (forall g :: g in RowGroups(c.orgRows) <==> g in GroupsOf(orgDf))
            && (forall g :: g in RowGroups(c.natRows) <==> g in GroupsOf(natDf))
            && (forall i :: 0 <= i < |c.orgRows| ==>
                  var m := FirstMatch(orgDf, c.orgRows[i].group);
                  m.Some? && c.orgRows[i].achievement == m.value.achievement && c.orgRows[i].source == m.value.orgName)
            && (forall i :: 0 <= i < |c.natRows| ==>
                  var m := FirstMatch(natDf, c.natRows[i].group);
                  m.Some? && c.natRows[i].achievement == m.value.achievement && c.natRows[i].source == NATIONAL_SOURCE)
  {
    var gs := AllGroups(orgDf, natDf);
    BlockShape(orgDf, gs, false);
    BlockShape(natDf, gs, true);
    BlockGroups(orgDf, gs, false);
    BlockGroups(natDf, gs, true);
  }
}

=== FILE: batch_geocode.dfy ===
/**
 batch_geocode.py: geocode a list of practices in two phases.

 Phase 1 runs `geocode_one` on every practice against the JSON endpoint
 (concurrently in the source; here in list order, which is the order
 `asyncio.gather` returns) and splits the results into located and
 unlocated practices. Phase 2 re-tries each unlocated practice, one at a
 time, through the synchronous client (`check_addresses_sync`), with the
 same short-then-long order.
 */
module BatchGeocode {
  import opened Wrappers
  import opened Lists
  import opened CoordDataclasses
  import opened Retry
  import opened GeocodeService

  /** `get_coordinates_sync`'s default `retries`, which `check_addresses_sync` relies on. */
  const SYNC_RETRIES: int := 3

  /** A tier of replies as `geocode_one` leaves it, stated on the replies themselves. */
  predicate ReplyTier(t: TierRun<Reply>, retries: int)
  {
    var n := |t.responses|;
    && n <= Budget(retries)
    // only statuses other than "OK" and "ZERO_RESULTS" are retried
    && (forall i :: 0 <= i < n - 1 ==> t.responses[i].OtherStatus?)
    // the tier stops early only on "OK" or "ZERO_RESULTS"
    && (n < Budget(retries) ==> n > 0 && !t.responses[n - 1].OtherStatus?)
    && (t.result.Found? <==> n > 0 && t.responses[n - 1].Ok?)
    && (t.result.Found? ==> t.responses[n - 1] == Ok(t.result.at))
    && (t.result.NoMatch? <==> n > 0 && t.responses[n - 1].ZeroResults?)
    // one sleep of 2**attempt * 0.1 s after every retried status, the last one included
    && |t.delays| == (if n == 0 || t.responses[n - 1].OtherStatus? then n else n - 1)
    && (forall i :: 0 <= i < |t.delays| ==> t.delays[i] == Pow2(i))
  }

  /** All replies one record received, in request order. */
  function Replies(run: RecordRun<Reply>): seq<Reply>
  {
    run.short.responses + if run.long.Some? then run.long.value.responses else []
  }

  /**
   `geocode_one`: the short address, then the long one, each for at most
   `retries` requests; a located practice keeps its own code, and a
   practice no reply located comes back unchanged.
   */
  function GeocodeOne(svc: Service, retries: int, p: PracticeAdd, tick: nat): (run: RecordRun<Reply>)
    ensures Requests(run) <= 2 * Budget(retries)
    ensures run.long.Some? <==> !run.short.result.Found?
    ensures run.outcome.PracticeCode() == p.practiceCode
    ensures run.outcome.Uncoded? ==> run.outcome.add == p
  {
    Fallback(svc, ClassifyReply, retries, p, tick)
  }

  /**
   The replies `geocode_one` sees: the short address's replies come first,
   the long address is asked only when the short one got no "OK", each
   tier is retried only on statuses other than "OK" and "ZERO_RESULTS",
   and the first "OK" is the last reply and gives the coordinates.
   */
  lemma GeocodeOneReplies(svc: Service, retries: int, p: PracticeAdd, tick: nat)
    ensures var run := GeocodeOne(svc, retries, p, tick);
            && ReplyTier(run.short, retries)
            && (run.long.Some? ==> ReplyTier(run.long.value, retries))
            && var rs := Replies(run);
               && |rs| == Requests(run)
               && (forall i :: 0 <= i < |rs| - 1 ==> !rs[i].Ok?)
               && (run.outcome.Coded? <==> |rs| > 0 && rs[|rs| - 1].Ok?)
               && (run.outcome.Coded? ==>
                     run.outcome.coords == PracticeCoords(p.practiceCode, rs[|rs| - 1].location.lat, rs[|rs| - 1].location.lng))
  {
    var run := GeocodeOne(svc, retries, p, tick);
    assert run == Fallback(svc, ClassifyReply, retries, p, tick);
    var good := (t: TierRun<Reply>) => ReplyTier(t, retries);
    forall address: string, t: nat
      ensures good(Tier(svc, address, t, ClassifyReply, retries))
    {
      ReplyTierHolds(Tier(svc, address, t, ClassifyReply, retries), svc, address, t, retries);
    }
    FallbackTiers(svc, ClassifyReply, retries, p, tick, good);
    RecordReplies(run, p, retries);
  }

  /** The outcome is the first location a tier found, or the practice handed back. */
  predicate OutcomeOfTiers(run: RecordRun<Reply>, p: PracticeAdd)
  {
    && (run.long.Some? <==> !run.short.result.Found?)
    && (run.short.result.Found? ==> run.outcome == Coded(Locate(p, run.short.result.at)))
    && (run.long.Some? && run.long.value.result.Found? ==> run.outcome == Coded(Locate(p, run.long.value.result.at)))
    && (run.long.Some? && !run.long.value.result.Found? ==> run.outcome == Uncoded(p))
  }

  /** A tier run by `geocode_one`'s classification reads as a reply tier. */
  lemma ReplyTierHolds(t: TierRun<Reply>, svc: Service, address: string, tick: nat, retries: int)
    requires t == Tier(svc, address, tick, ClassifyReply, retries)
    ensures ReplyTier(t, retries)
  {
  }

  /** The reply-level reading of a record whose tiers are reply tiers. */
  lemma RecordReplies(run: RecordRun<Reply>, p: PracticeAdd, retries: int)
    requires ReplyTier(run.short, retries)
    requires run.long.Some? ==> ReplyTier(run.long.value, retries)
    requires OutcomeOfTiers(run, p)
    ensures var rs := Replies(run);
            && |rs| == Requests(run)
            && (forall i :: 0 <= i < |rs| - 1 ==> !rs[i].Ok?)
            && (run.outcome.Coded? <==> |rs| > 0 && rs[|rs| - 1].Ok?)
            && (run.outcome.Coded? ==>
                  run.outcome.coords == PracticeCoords(p.practiceCode, rs[|rs| - 1].location.lat, rs[|rs| - 1].location.lng))
  {
    var rs := Replies(run);
    var short := run.short.responses;
    if run.long.Some? {
      var long := run.long.value.responses;
      assert rs == short + long;
      assert forall i :: 0 <= i < |short| ==> !short[i].Ok?;
      if |long| == 0 {
        assert rs == short;
      } else {
        assert rs[|rs| - 1] == long[|long| - 1];
      }
    } else {
      assert rs == short;
    }
  }

  /** What one `get_coordinates_sync` call returned, and the tier it ran. */
  datatype SyncCall = SyncCall(outcome: Geocoded, run: TierRun<SyncResponse>)

  /**
   One `get_coordinates_sync` call under a given reading of the responses:
   at most `retries` consecutive requests, a miss hands the practice back
   at once, a transient response is retried, and a hit locates the practice.
   */
  function SyncCallWith(read: SyncResponse -> Step, gmaps: SyncService, p: PracticeAdd, address: string, retries: int, tick: nat): (call: SyncCall)
    ensures |call.run.responses| <= Budget(retries)
    ensures forall i :: 0 <= i < |call.run.responses| ==> call.run.responses[i] == gmaps(tick + i, address)
    ensures retries >= 1 && read(gmaps(tick, address)).Miss? ==> call.outcome == Uncoded(p) && |call.run.responses| == 1
    ensures call.outcome.Uncoded? ==> call.outcome.add == p
    ensures call.outcome.Coded? ==>
              var n := |call.run.responses|;
              && n > 0
              && read(call.run.responses[n - 1]).Hit?
              && call.outcome.coords == Locate(p, read(call.run.responses[n - 1]).at)
    ensures call.outcome.Uncoded? && |call.run.responses| < Budget(retries) ==>
              |call.run.responses| > 0 && read(call.run.responses[|call.run.responses| - 1]).Miss?
    ensures forall i :: 0 <= i < |call.run.responses| - 1 ==> read(call.run.responses[i]).Transient?
    ensures forall i :: 0 <= i < |call.run.delays| ==> call.run.delays[i] == Pow2(i)
    ensures var n := |call.run.responses|;
            |call.run.delays| == if n > 0 && !read(call.run.responses[n - 1]).Transient? then n - 1 else n
  {
    var run := Tier(gmaps, address, tick, read, retries);
    SyncCall(if run.result.Found? then Coded(Locate(p, run.result.at)) else Uncoded(p), run)
  }

  /**
   `get_coordinates_sync` with the longitude read under `"lng"`: an empty
   result hands the practice back at once, an exception backs off and
   retries, and `retries` failures hand the practice back.
   */
  function GetCoordinatesSync(gmaps: SyncService, p: PracticeAdd, address: string, retries: int, tick: nat): (call: SyncCall)
    ensures |call.run.responses| <= Budget(retries)
    ensures forall i :: 0 <= i < |call.run.responses| ==> call.run.responses[i] == gmaps(tick + i, address)
    ensures retries >= 1 && gmaps(tick, address).Empty? ==> call.outcome == Uncoded(p) && |call.run.responses| == 1
    ensures call.outcome.Uncoded? ==> call.outcome.add == p
    ensures call.outcome.Coded? ==>
              var n := |call.run.responses|;
              && n > 0
              && call.run.responses[n - 1].Located?
              && var loc := call.run.responses[n - 1].location;
                 && "lat" in loc && "lng" in loc
                 && call.outcome.coords == PracticeCoords(p.practiceCode, loc["lat"], loc["lng"])
    ensures call.outcome.Uncoded? && |call.run.responses| < Budget(retries) ==>
              |call.run.responses| > 0 && call.run.responses[|call.run.responses| - 1].Empty?
    ensures forall i :: 0 <= i < |call.run.responses| - 1 ==> Raises(call.run.responses[i], "lng")
    ensures forall i :: 0 <= i < |call.run.delays| ==> call.run.delays[i] == Pow2(i)
    ensures var n := |call.run.responses|;
            |call.run.delays| == if n > 0 && !Raises(call.run.responses[n - 1], "lng") then n - 1 else n
  {
    SyncCallWith(ReadLng, gmaps, p, address, retries, tick)
  }

  /**
   `get_coordinates_sync` exactly as written: the same calls, but the
   longitude is read as `loc["lon"]`, so a location counts only when it
   carries both `lat` and `lon`.
   */
  function GetCoordinatesSyncAsWritten(gmaps: SyncService, p: PracticeAdd, address: string, retries: int, tick: nat): (call: SyncCall)
    ensures |call.run.responses| <= Budget(retries)
    ensures forall i :: 0 <= i < |call.run.responses| ==> call.run.responses[i] == gmaps(tick + i, address)
    ensures retries >= 1 && gmaps(tick, address).Empty? ==> call.outcome == Uncoded(p) && |call.run.responses| == 1
    ensures call.outcome.Uncoded? ==> call.outcome.add == p
    ensures call.outcome.Coded? ==>
              var n := |call.run.responses|;
              && n > 0
              && call.run.responses[n - 1].Located?
              && var loc := call.run.responses[n - 1].location;
                 && "lat" in loc && "lon" in loc
                 && call.outcome.coords == PracticeCoords(p.practiceCode, loc["lat"], loc["lon"])
    ensures call.outcome.Uncoded? && |call.run.responses| < Budget(retries) ==>
              |call.run.responses| > 0 && call.run.responses[|call.run.responses| - 1].Empty?
    ensures forall i :: 0 <= i < |call.run.responses| - 1 ==> Raises(call.run.responses[i], "lon")
    ensures forall i :: 0 <= i < |call.run.delays| ==> call.run.delays[i] == Pow2(i)
    ensures var n := |call.run.responses|;
            |call.run.delays| == if n > 0 && !Raises(call.run.responses[n - 1], "lon") then n - 1 else n
  {
    SyncCallWith(ReadLon, gmaps, p, address, retries, tick)
  }

  /**
   An empty result ends the call on whichever attempt it comes: after `k`
   calls that raised, an empty result on call `k + 1` hands the practice
   back, with one sleep per raised call.
   */
  lemma RaisedThenEmpty(gmaps: SyncService, p: PracticeAdd, address: string, retries: int, tick: nat, k: nat)
    requires k < retries
    requires forall t :: tick <= t < tick + k ==> Raises(gmaps(t, address), "lon")
    requires gmaps(tick + k, address).Empty?
    ensures var call := GetCoordinatesSyncAsWritten(gmaps, p, address, retries, tick);
            && call.outcome == Uncoded(p)
            && |call.run.responses| == k + 1
            && |call.run.delays| == k
  {
    var call := GetCoordinatesSyncAsWritten(gmaps, p, address, retries, tick);
    assert |call.run.responses| > k ==> call.run.responses[k] == gmaps(tick + k, address);
  }

  /**
   As written, a service whose locations carry `lat` and `lng` (and no
   `lon`) never gets a practice located: every located reply raises
   `KeyError`, which is caught and retried like a transport error.
   */
  lemma LonKeyNeverLocates(gmaps: SyncService, p: PracticeAdd, address: string, retries: int, tick: nat)
    requires forall t, a :: WellFormed(gmaps(t, a))
    ensures GetCoordinatesSyncAsWritten(gmaps, p, address, retries, tick).outcome == Uncoded(p)
  {
    var call := GetCoordinatesSyncAsWritten(gmaps, p, address, retries, tick);
    var n := |call.run.responses|;
    if n > 0 {
      var last := call.run.responses[n - 1];
      assert last == gmaps(tick + (n - 1), address);
      assert WellFormed(last);
      if last.Located? {
        assert "lon" !in last.location;
      }
    }
  }

  /** With the intended key, a well-formed location on the first request locates the practice. */
  lemma GetCoordinatesSyncLocates(gmaps: SyncService, p: PracticeAdd, address: string, retries: int, tick: nat)
    requires retries >= 1
    requires gmaps(tick, address).Located? && WellFormed(gmaps(tick, address))
    ensures var loc := gmaps(tick, address).location;
            var call := GetCoordinatesSync(gmaps, p, address, retries, tick);
            && call.outcome == Coded(PracticeCoords(p.practiceCode, loc["lat"], loc["lng"]))
            && |call.run.responses| == 1
  {
  }

  /** The concrete service reply that separates the two readings. */
  lemma LonKeyCounterexample()
    ensures var gmaps: SyncService := (t, a) => Located(map["lat" := 51.5, "lng" := -0.1]);
            var p := PracticeAdd("A1", "1 Main St, AB1 2CD", "Long form, 1 Main St, Town, AB1 2CD");
            && GetCoordinatesSyncAsWritten(gmaps, p, p.shortAddr, SYNC_RETRIES, 0).outcome == Uncoded(p)
            && GetCoordinatesSync(gmaps, p, p.shortAddr, SYNC_RETRIES, 0).outcome == Coded(PracticeCoords("A1", 51.5, -0.1))
  {
    var gmaps: SyncService := (t, a) => Located(map["lat" := 51.5, "lng" := -0.1]);
    var p := PracticeAdd("A1", "1 Main St, AB1 2CD", "Long form, 1 Main St, Town, AB1 2CD");
    LonKeyNeverLocates(gmaps, p, p.shortAddr, SYNC_RETRIES, 0);
    GetCoordinatesSyncLocates(gmaps, p, p.shortAddr, SYNC_RETRIES, 0);
  }

  /**
   `check_addresses_sync` under a reading of the responses: one
   `get_coordinates_sync` call on the short address, and one on the long
   address only if the first handed the practice back. `ReadLon` is the
   code as written, `ReadLng` the intended reading.
   */
  function CheckAddressesSync(read: SyncResponse -> Step, gmaps: SyncService, p: PracticeAdd, tick: nat): (run: RecordRun<SyncResponse>)
    ensures run.long.Some? <==> !run.short.result.Found?
    ensures Requests(run) <= 2 * SYNC_RETRIES
    ensures run.outcome.PracticeCode() == p.practiceCode
    ensures run.outcome.Uncoded? ==> run.outcome.add == p
  {
    var c := SyncCallWith(read, gmaps, p, p.shortAddr, SYNC_RETRIES, tick);
    if c.outcome.Uncoded? then
      var c' := SyncCallWith(read, gmaps, p, p.longAddr, SYNC_RETRIES, tick + |c.run.responses|);
      RecordRun(c'.outcome, c.run, Some(c'.run))
    else
      RecordRun(c.outcome, c.run, None)
  }

  /** The synchronous pass runs the same fallback as `geocode_one`, with three attempts per address. */
  lemma CheckAddressesSyncIsFallback(read: SyncResponse -> Step, gmaps: SyncService, p: PracticeAdd, tick: nat)
    ensures CheckAddressesSync(read, gmaps, p, tick) == Fallback(gmaps, read, SYNC_RETRIES, p, tick)
  {
  }

  /** As written, a service answering with well-formed locations never has a practice located by the synchronous pass. */
  lemma CheckAddressesSyncLocatesNothing(gmaps: SyncService, p: PracticeAdd, tick: nat)
    requires forall t, a :: WellFormed(gmaps(t, a))
    ensures CheckAddressesSync(ReadLon, gmaps, p, tick).outcome == Uncoded(p)
  {
    var c := GetCoordinatesSyncAsWritten(gmaps, p, p.shortAddr, SYNC_RETRIES, tick);
    LonKeyNeverLocates(gmaps, p, p.shortAddr, SYNC_RETRIES, tick);
    LonKeyNeverLocates(gmaps, p, p.longAddr, SYNC_RETRIES, tick + |c.run.responses|);
  }

  /** Reading `lng`, a service answering every request with a well-formed location locates every practice at once. */
  lemma CheckAddressesSyncLocatesAll(gmaps: SyncService, p: PracticeAdd, tick: nat)
    requires forall t, a :: gmaps(t, a).Located? && WellFormed(gmaps(t, a))
    ensures var run := CheckAddressesSync(ReadLng, gmaps, p, tick);
            && run.outcome.Coded?
            && run.long.None?
            && Requests(run) == 1
  {
    GetCoordinatesSyncLocates(gmaps, p, p.shortAddr, SYNC_RETRIES, tick);
  }

  /** Phase 1: `asyncio.gather` over `geocode_one` for every practice. */
  function GeocodeAll(svc: Service, retries: int, ps: seq<PracticeAdd>, tick: nat): (phase: Phase)
    ensures |phase.results| == |ps|
    ensures forall i :: 0 <= i < |ps| ==> Answers(phase.results[i], ps[i])
    ensures phase.requests <= 2 * Budget(retries) * |ps|
  {
    var one := (p, t) => GeocodeOne(svc, retries, p, t);
    SequenceAnswers(one, ps, tick);
    SequenceRequests(one, ps, tick, 2 * Budget(retries));
    Sequence(one, ps, tick)
  }

  /** Phase 2: `check_addresses_sync` on every practice phase 1 handed back, one after another. */
  function Recover(read: SyncResponse -> Step, gmaps: SyncService, pending: seq<PracticeAdd>, tick: nat): (phase: Phase)
    ensures |phase.results| == |pending|
    ensures forall i :: 0 <= i < |pending| ==> Answers(phase.results[i], pending[i])
    ensures phase.requests <= 2 * SYNC_RETRIES * |pending|
  {
    var one := (p, t) => CheckAddressesSync(read, gmaps, p, t);
    SequenceAnswers(one, pending, tick);
    SequenceRequests(one, pending, tick, 2 * SYNC_RETRIES);
    Sequence(one, pending, tick)
  }

  /** `succesful`: the located results, in order. */
  function Successful(results: seq<Geocoded>): (s: seq<PracticeCoords>)
  {
    if |results| == 0 then []
    else match results[0]
      case Coded(c) => [c] + Successful(results[1..])
      case Uncoded(_) => Successful(results[1..])
  }

  /** `unsuccesful`: the practices handed back, in order. */
  function Unsuccessful(results: seq<Geocoded>): (u: seq<PracticeAdd>)
  {
    if |results| == 0 then []
    else match results[0]
      case Coded(_) => Unsuccessful(results[1..])
      case Uncoded(a) => [a] + Unsuccessful(results[1..])
  }

  /** Adding one code to either side of a split adds it to the whole. */
  lemma ConsSplit(x: string, a: seq<string>, b: seq<string>, c: seq<string>)
    requires multiset(a) + multiset(b) == multiset(c)
    ensures multiset([x] + a) + multiset(b) == multiset([x] + c)
    ensures multiset(a) + multiset([x] + b) == multiset([x] + c)
  {
  }

  /** Every result lands in exactly one of the two lists. */
  lemma {:induction false} PartitionComplete(results: seq<Geocoded>)
    ensures |Successful(results)| + |Unsuccessful(results)| == |results|
    ensures multiset(CoordsCodes(Successful(results))) + multiset(AddCodes(Unsuccessful(results)))
            == multiset(GeocodedCodes(results))
  {
    if |results| > 0 {
      var rest := results[1..];
      PartitionComplete(rest);
      assert GeocodedCodes(results) == [results[0].PracticeCode()] + GeocodedCodes(rest);
      match results[0]
      case Coded(c) =>
        assert CoordsCodes(Successful(results)) == [c.practiceCode] + CoordsCodes(Successful(rest));
        ConsSplit(c.practiceCode, CoordsCodes(Successful(rest)), AddCodes(Unsuccessful(rest)), GeocodedCodes(rest));
      case Uncoded(a) =>
        assert AddCodes(Unsuccessful(results)) == [a.practiceCode] + AddCodes(Unsuccessful(rest));
        ConsSplit(a.practiceCode, CoordsCodes(Successful(rest)), AddCodes(Unsuccessful(rest)), GeocodedCodes(rest));
    }
  }

  /** A practice is in `succesful` exactly when it was located, and in `unsuccesful` exactly when it was handed back. */
  lemma {:induction false} PartitionMembers(results: seq<Geocoded>)
    ensures forall c :: c in Successful(results) <==> Coded(c) in results
    ensures forall a :: a in Unsuccessful(results) <==> Uncoded(a) in results
  {
    if |results| > 0 {
      PartitionMembers(results[1..]);
      assert results == [results[0]] + results[1..];
    }
  }

  /** The practices handed back are the unlocated practices, in their original order. */
  lemma {:induction false} UnsuccessfulSubsequence(results: seq<Geocoded>, ps: seq<PracticeAdd>)
    requires |results| == |ps|
    requires forall i :: 0 <= i < |ps| ==> Answers(results[i], ps[i])
    ensures IsSubsequence(Unsuccessful(results), ps)
    ensures GeocodedCodes(results) == AddCodes(ps)
  {
    if |ps| > 0 {
      assert forall i :: 0 <= i < |ps| - 1 ==> Answers(results[1..][i], ps[1..][i]) by {
        forall i | 0 <= i < |ps| - 1 ensures Answers(results[1..][i], ps[1..][i]) {
          assert Answers(results[i + 1], ps[i + 1]);
        }
      }
      UnsuccessfulSubsequence(results[1..], ps[1..]);
      assert Answers(results[0], ps[0]);
      match results[0]
      case Coded(_) =>
        if |Unsuccessful(results)| > 0 {
          SubsequenceOfTail(Unsuccessful(results), ps);
        }
      case Uncoded(a) =>
        assert Unsuccessful(results)[1..] == Unsuccessful(results[1..]);
    }
  }

  /** The pair `_batch_geocode_async` returns: the located practices and the practices neither pass located. */
  datatype BatchResult = BatchResult(successful: seq<PracticeCoords>, failed: seq<PracticeAdd>)

  /** Splitting the second part of a split again. */
  lemma SplitTwice(a: multiset<string>, b: multiset<string>, c: multiset<string>, d: multiset<string>)
    ensures c + d == b ==> (a + c) + d == a + b
  {
  }

  /** Where phase 2 puts each practice: a located practice among its successes, a handed-back one among its failures. */
  lemma RecoveryPlacement(pending: seq<PracticeAdd>, second: seq<Geocoded>)
    requires |second| == |pending|
    requires forall i :: 0 <= i < |second| ==> Answers(second[i], pending[i])
    ensures forall i :: 0 <= i < |second| && second[i].Coded? ==> second[i].coords in Successful(second)
    ensures forall i :: 0 <= i < |second| && second[i].Uncoded? ==> pending[i] in Unsuccessful(second)
    ensures forall c :: c in Successful(second) <==> Coded(c) in second
    ensures forall a :: a in Unsuccessful(second) <==> Uncoded(a) in second
  {
    PartitionMembers(second);
    assert forall i :: 0 <= i < |second| && second[i].Uncoded? ==> second[i] == Uncoded(pending[i]);
  }

  /**
   Where the recovery loop put the results `second` of phase 2 on `pending`,
   with `prior` practices already located before it: each practice phase 2
   located is in `succesful` after the first `prior`, each it handed back is
   in `failed`, and those two parts hold nothing else.
   */
  ghost predicate PlacesRecovery(r: BatchResult, prior: nat, pending: seq<PracticeAdd>, second: seq<Geocoded>)
  {
    && prior <= |r.successful|
    && |second| == |pending|
    && (forall i :: 0 <= i < |second| && second[i].Coded? ==> second[i].coords in r.successful[prior..])
    && (forall i :: 0 <= i < |second| && second[i].Uncoded? ==> pending[i] in r.failed)
    && (forall c :: c in r.successful[prior..] <==> Coded(c) in second)
    && (forall a :: a in r.failed <==> Uncoded(a) in second)
  }

  /**
   The loop after phase 1: the practices phase 2 located are appended to
   those phase 1 located, and the practices it handed back are the failures.
   */
  function Combine(ps: seq<PracticeAdd>, first: seq<Geocoded>, second: seq<Geocoded>): (r: BatchResult)
    requires |first| == |ps| && forall i :: 0 <= i < |ps| ==> Answers(first[i], ps[i])
    requires |second| == |Unsuccessful(first)|
    requires forall i :: 0 <= i < |second| ==> Answers(second[i], Unsuccessful(first)[i])
    ensures |r.successful| + |r.failed| == |ps|
    ensures multiset(CoordsCodes(r.successful)) + multiset(AddCodes(r.failed)) == multiset(AddCodes(ps))
    ensures Successful(first) <= r.successful
    ensures IsSubsequence(r.failed, Unsuccessful(first))
    ensures IsSubsequence(Unsuccessful(first), ps)
    ensures PlacesRecovery(r, |Successful(first)|, Unsuccessful(first), second)
  {
    var s1, u1, s2, u2 := Successful(first), Unsuccessful(first), Successful(second), Unsuccessful(second);
    assert |s1| + |u1| == |ps| && |s2| + |u2| == |u1| by {
      PartitionComplete(first);
      PartitionComplete(second);
    }
    assert multiset(CoordsCodes(s1 + s2)) + multiset(AddCodes(u2)) == multiset(AddCodes(ps)) by {
      PartitionComplete(first);
      PartitionComplete(second);
      UnsuccessfulSubsequence(first, ps);
      UnsuccessfulSubsequence(second, u1);
      CoordsCodesAppend(s1, s2);
      SplitTwice(multiset(CoordsCodes(s1)), multiset(AddCodes(u1)), multiset(CoordsCodes(s2)), multiset(AddCodes(u2)));
    }
    assert IsSubsequence(u2, u1) && IsSubsequence(u1, ps) by {
      UnsuccessfulSubsequence(first, ps);
      UnsuccessfulSubsequence(second, u1);
    }
    assert (s1 + s2)[|s1|..] == s2;
    RecoveryPlacement(u1, second);
    BatchResult(s1 + s2, u2)
  }

  /**
   `_batch_geocode_async` (and `batch_geocode`, which runs it) as written:
   phase 1 on every practice, then phase 2, reading the longitude as
   `loc["lon"]`, on the practices phase 1 handed back. Both oracles count
   their requests from 0.
   */
  function BatchGeocode(svc: Service, gmaps: SyncService, practiceList: seq<PracticeAdd>, retries: int): (r: BatchResult)
    ensures |r.successful| + |r.failed| == |practiceList|
    ensures multiset(CoordsCodes(r.successful)) + multiset(AddCodes(r.failed)) == multiset(AddCodes(practiceList))
    ensures Successful(GeocodeAll(svc, retries, practiceList, 0).results) <= r.successful
    ensures IsSubsequence(r.failed, Unsuccessful(GeocodeAll(svc, retries, practiceList, 0).results))
    ensures IsSubsequence(Unsuccessful(GeocodeAll(svc, retries, practiceList, 0).results), practiceList)
    ensures var first := GeocodeAll(svc, retries, practiceList, 0).results;
            PlacesRecovery(r, |Successful(first)|, Unsuccessful(first), Recover(ReadLon, gmaps, Unsuccessful(first), 0).results)
  {
    var first := GeocodeAll(svc, retries, practiceList, 0).results;
    Combine(practiceList, first, Recover(ReadLon, gmaps, Unsuccessful(first), 0).results)
  }

  /** `_batch_geocode_async` with phase 2 reading the longitude as `loc["lng"]`. */
  function BatchGeocodeCorrected(svc: Service, gmaps: SyncService, practiceList: seq<PracticeAdd>, retries: int): (r: BatchResult)
    ensures |r.successful| + |r.failed| == |practiceList|
    ensures multiset(CoordsCodes(r.successful)) + multiset(AddCodes(r.failed)) == multiset(AddCodes(practiceList))
    ensures Successful(GeocodeAll(svc, retries, practiceList, 0).results) <= r.successful
    ensures IsSubsequence(r.failed, Unsuccessful(GeocodeAll(svc, retries, practiceList, 0).results))
    ensures IsSubsequence(Unsuccessful(GeocodeAll(svc, retries, practiceList, 0).results), practiceList)
    ensures var first := GeocodeAll(svc, retries, practiceList, 0).results;
            PlacesRecovery(r, |Successful(first)|, Unsuccessful(first), Recover(ReadLng, gmaps, Unsuccessful(first), 0).results)
  {
    var first := GeocodeAll(svc, retries, practiceList, 0).results;
    Combine(practiceList, first, Recover(ReadLng, gmaps, Unsuccessful(first), 0).results)
  }

  /** A run of results handing back every practice splits into no successes and the practices themselves. */
  lemma {:induction false} AllUncoded(results: seq<Geocoded>, ps: seq<PracticeAdd>)
    requires |results| == |ps|
    requires forall i :: 0 <= i < |ps| ==> results[i] == Uncoded(ps[i])
    ensures Successful(results) == []
    ensures Unsuccessful(results) == ps
  {
    if |ps| > 0 {
      AllUncoded(results[1..], ps[1..]);
    }
  }

  /** A run of results locating every practice hands none back. */
  lemma {:induction false} AllCoded(results: seq<Geocoded>)
    requires forall i :: 0 <= i < |results| ==> results[i].Coded?
    ensures Unsuccessful(results) == []
  {
    if |results| > 0 {
      AllCoded(results[1..]);
    }
  }

  /**
   As written, against a service whose locations carry `lat` and `lng`,
   phase 2 locates nothing: the result is exactly phase 1's split.
   */
  lemma RecoveryLocatesNothing(svc: Service, gmaps: SyncService, practiceList: seq<PracticeAdd>, retries: int)
    requires forall t, a :: WellFormed(gmaps(t, a))
    ensures var first := GeocodeAll(svc, retries, practiceList, 0).results;
            var r := BatchGeocode(svc, gmaps, practiceList, retries);
            && r.successful == Successful(first)
            && r.failed == Unsuccessful(first)
  {
    var first := GeocodeAll(svc, retries, practiceList, 0).results;
    var pending := Unsuccessful(first);
    var one := (p, t) => CheckAddressesSync(ReadLon, gmaps, p, t);
    var second := Recover(ReadLon, gmaps, pending, 0).results;
    forall i | 0 <= i < |pending|
      ensures second[i] == Uncoded(pending[i])
    {
      SequenceRecord(one, pending, 0, i);
      CheckAddressesSyncLocatesNothing(gmaps, pending[i], StartOf(one, pending, 0, i));
    }
    AllUncoded(second, pending);
  }

  /**
   Reading `lng`, against a service answering every request with a
   well-formed location, phase 2 locates every practice phase 1 handed
   back, so none fails.
   */
  lemma RecoveryLocatesAll(svc: Service, gmaps: SyncService, practiceList: seq<PracticeAdd>, retries: int)
    requires forall t, a :: gmaps(t, a).Located? && WellFormed(gmaps(t, a))
    ensures var r := BatchGeocodeCorrected(svc, gmaps, practiceList, retries);
            && r.failed == []
            && |r.successful| == |practiceList|
  {
    var first := GeocodeAll(svc, retries, practiceList, 0).results;
    var pending := Unsuccessful(first);
    var one := (p, t) => CheckAddressesSync(ReadLng, gmaps, p, t);
    var second := Recover(ReadLng, gmaps, pending, 0).results;
    forall i | 0 <= i < |pending|
      ensures second[i].Coded?
    {
      SequenceRecord(one, pending, 0, i);
      CheckAddressesSyncLocatesAll(gmaps, pending[i], StartOf(one, pending, 0, i));
    }
    AllCoded(second);
  }

  /** With distinct practice codes, no practice is both located and failed. */
  lemma NoPracticeInBoth(svc: Service, gmaps: SyncService, practiceList: seq<PracticeAdd>, retries: int)
    requires DistinctCodes(practiceList)
    ensures var r := BatchGeocode(svc, gmaps, practiceList, retries);
            forall c, a :: c in r.successful && a in r.failed ==> c.practiceCode != a.practiceCode
  {
    var r := BatchGeocode(svc, gmaps, practiceList, retries);
    var located, failed, all := CoordsCodes(r.successful), AddCodes(r.failed), AddCodes(practiceList);
    assert multiset(located) + multiset(failed) == multiset(all);
    DistinctCodesOnce(practiceList);
    forall c, a | c in r.successful && a in r.failed
      ensures c.practiceCode != a.practiceCode
    {
      var i :| 0 <= i < |r.successful| && r.successful[i] == c;
      var j :| 0 <= j < |r.failed| && r.failed[j] == a;
      assert located[i] == c.practiceCode && failed[j] == a.practiceCode;
      CountBoth(multiset(located), multiset(failed), multiset(all), c.practiceCode, a.practiceCode);
    }
  }

  /** Two multisets that add up to one holding each value at most once share no value. */
  lemma CountBoth(m: multiset<string>, n: multiset<string>, total: multiset<string>, x: string, y: string)
    requires m + n == total && total[x] <= 1
    requires x in m && y in n
    ensures x != y
  {
  }

  lemma DistinctCodesOnce(ps: seq<PracticeAdd>)
    requires DistinctCodes(ps)
    ensures forall x :: multiset(AddCodes(ps))[x] <= 1
  {
    forall x ensures multiset(AddCodes(ps))[x] <= 1 {
      DistinctMultiplicity(AddCodes(ps), x);
    }
  }
}

=== FILE: constants.dfy ===
/**
 The dashboard's constants (visualization/constants.py): the organisation
 level tables, and the five achievement buckets, each an SQL condition that
 the queries splice in after `percentage_patients_achieved`.

 A bucket condition is read here as an interval `lower <= x < upper` on the
 percentage, either end possibly open; `Render` writes the interval back
 as the SQL text the source stores, so the partition facts proved on the
 intervals are facts about those strings.
 */
module Constants {
  import opened Wrappers
  import opened Strings

  const PRACTICE_TABLE: string := "qof_vis.fct__practice_achievement"

  /** `ORG_TABLE`: display level to fact table. */
  const ORG_TABLE: map<string, string> := map[
    "Practice" := PRACTICE_TABLE,
    "PCN" := "qof_vis.fct__pcn_achievement",
    "Sub-ICB" := "qof_vis.fct__sub_icb_achievement",
    "ICB" := "qof_vis.fct__icb_achievement",
    "Region" := "qof_vis.fct__region_achievement"
  ]

  /** One entry of `BUCKET_SQL`: a display label and its SQL condition. */
  datatype Bucket = Bucket(key: string, sql: string)

  /** The text joining the two halves of a closed bucket's condition. */
  const AND_BELOW: string := " AND percentage_patients_achieved < "

  /**
   `BUCKET_SQL`, in the dict's insertion order. The three closed conditions
   are the source's literals with the shared middle text named `AND_BELOW`.
   */
  const BUCKET_SQL: seq<Bucket> := [
    Bucket("< 20 %", "< 20"),
    Bucket("20-40 %", ">= 20" + AND_BELOW + "40"),
    Bucket("40-60 %", ">= 40" + AND_BELOW + "60"),
    Bucket("60-80 %", ">= 60" + AND_BELOW + "80"),
    Bucket("80-100 %", ">= 80")
  ]

  const DEFAULT_BUCKET: string := "80-100 %"

  /** The labels of `BUCKET_SQL`, in order (iterating the dict). */
  function BucketKeys(buckets: seq<Bucket>): (keys: seq<string>)
    ensures |keys| == |buckets|
    ensures forall i :: 0 <= i < |buckets| ==> keys[i] == buckets[i].key
  {
    if |buckets| == 0 then [] else [buckets[0].key] + BucketKeys(buckets[1..])
  }

  /** `lower <= x < upper`, with `None` for an open end. */
  datatype Interval = Interval(lower: Option<int>, upper: Option<int>)

  /** The intervals the five conditions describe, in key order. */
  const BUCKET_INTERVALS: seq<Interval> := [
    Interval(None, Some(20)),
    Interval(Some(20), Some(40)),
    Interval(Some(40), Some(60)),
    Interval(Some(60), Some(80)),
    Interval(Some(80), None)
  ]

  /** The SQL condition, to follow `percentage_patients_achieved`, that selects an interval. */
  function Render(b: Interval): string
  {
    match (b.lower, b.upper)
    case (None, Some(u)) => "< " + DecimalOf(u)
    case (Some(l), None) => ">= " + DecimalOf(l)
    case (Some(l), Some(u)) => ">= " + DecimalOf(l) + AND_BELOW + DecimalOf(u)
    case (None, None) => "IS NOT NULL"
  }

  /**
   Whether a row with this percentage passes the condition. SQL compares a
   NULL percentage to nothing, so a NULL row is in no bucket.
   */
  predicate InInterval(b: Interval, pct: Option<real>)
  {
    && pct.Some?
    && (b.lower.None? || pct.value >= b.lower.value as real)
    && (b.upper.None? || pct.value < b.upper.value as real)
  }

  /** `str(10 * d)` for a single digit `d > 0`. */
  lemma DecimalOfTens(d: nat)
    requires 1 <= d <= 9
    ensures DecimalOf(10 * d) == [Digit(d), '0']
  {
    assert NaturalDigits(10 * d) == NaturalDigits(d) + [Digit(0)];
  }

  /** Each bucket's SQL text is the rendering of its interval. */
  lemma BucketSqlIsInterval()
    ensures |BUCKET_SQL| == |BUCKET_INTERVALS|
    ensures forall i :: 0 <= i < |BUCKET_SQL| ==> BUCKET_SQL[i].sql == Render(BUCKET_INTERVALS[i])
  {
    DecimalOfTens(2);
    DecimalOfTens(4);
    DecimalOfTens(6);
    DecimalOfTens(8);
    assert ">= 20" == ">= " + DecimalOf(20);
    assert ">= 40" == ">= " + DecimalOf(40);
    assert ">= 60" == ">= " + DecimalOf(60);
    assert ">= 80" == ">= " + DecimalOf(80);
  }

  /** The bucket of a non-null percentage: its index in key order. */
  function BucketOf(pct: real): (i: nat)
    ensures i < |BUCKET_INTERVALS|
    ensures InInterval(BUCKET_INTERVALS[i], Some(pct))
    ensures forall j :: 0 <= j < |BUCKET_INTERVALS| && InInterval(BUCKET_INTERVALS[j], Some(pct)) ==> j == i
  {
    if pct < 20.0 then 0
    else if pct < 40.0 then 1
    else if pct < 60.0 then 2
    else if pct < 80.0 then 3
    else 4
  }

  /** No percentage is in two buckets. */
  lemma BucketsDisjoint(i: nat, j: nat, pct: Option<real>)
    requires i < |BUCKET_INTERVALS| && j < |BUCKET_INTERVALS| && i != j
    ensures !(InInterval(BUCKET_INTERVALS[i], pct) && InInterval(BUCKET_INTERVALS[j], pct))
  {
    if pct.Some? {
      var k := BucketOf(pct.value);
    }
  }

  /** A percentage is in some bucket exactly when it is not NULL. */
  lemma BucketsCover(pct: Option<real>)
    ensures (exists i :: 0 <= i < |BUCKET_INTERVALS| && InInterval(BUCKET_INTERVALS[i], pct)) <==> pct.Some?
  {
    if pct.Some? {
      var k := BucketOf(pct.value);
    }
  }

  /** Consecutive buckets meet: each upper bound is the next lower bound, and only the ends are open. */
  lemma BucketsContiguous()
    ensures BUCKET_INTERVALS[0].lower.None? && BUCKET_INTERVALS[|BUCKET_INTERVALS| - 1].upper.None?
    ensures forall i :: 0 <= i < |BUCKET_INTERVALS| - 1 ==>
              BUCKET_INTERVALS[i].upper.Some? && BUCKET_INTERVALS[i].upper == BUCKET_INTERVALS[i + 1].lower
  {
  }

  /** The lower bounds rise in key order: none, 20, 40, 60, 80. */
  lemma LowerBoundsIncrease()
    ensures forall i, j :: 1 <= i < j < |BUCKET_INTERVALS| ==>
              BUCKET_INTERVALS[i].lower.Some? && BUCKET_INTERVALS[j].lower.Some? &&
              BUCKET_INTERVALS[i].lower.value < BUCKET_INTERVALS[j].lower.value
  {
  }

  /** `DEFAULT_BUCKET` is one of the bucket labels, and no label repeats. */
  lemma DefaultBucketIsKey()
    ensures DEFAULT_BUCKET in BucketKeys(BUCKET_SQL)
    ensures forall i, j :: 0 <= i < j < |BUCKET_SQL| ==> BUCKET_SQL[i].key != BUCKET_SQL[j].key
  {
    assert BucketKeys(BUCKET_SQL)[4] == DEFAULT_BUCKET;
    // The labels already differ in their first character.
    assert forall i :: 0 <= i < |BUCKET_SQL| ==> |BUCKET_SQL[i].key| > 0 && BUCKET_SQL[i].key[0] == "<2468"[i];
  }

  /** `ORG_TABLE` has exactly the five levels, "Practice" among them. */
  lemma OrgTableLevels()
    ensures ORG_TABLE.Keys == {"Practice", "PCN", "Sub-ICB", "ICB", "Region"}
    ensures |ORG_TABLE| == 5
    ensures ORG_TABLE["Practice"] == PRACTICE_TABLE
  {
  }
}

=== FILE: coord_dataclasses.dfy ===
/**
 The two record types the geocoder passes around (coord_dataclasses.py),
 and the `PracticeCoords | PracticeAdd` union its functions return.
 Latitudes and longitudes are carried through untouched, so `real` stands
 in for the source's `float`.
 */
module CoordDataclasses {

  /** A practice whose location is known. */
  datatype PracticeCoords = PracticeCoords(practiceCode: string, lat: real, lon: real)

  /** A practice still to be located, with its two candidate addresses. */
  datatype PracticeAdd = PracticeAdd(practiceCode: string, shortAddr: string, longAddr: string)

  /** `PracticeCoords | PracticeAdd`: located, or handed back unchanged. */
  datatype Geocoded = Coded(coords: PracticeCoords) | Uncoded(add: PracticeAdd)
  {
    function PracticeCode(): string
    {
      match this
      case Coded(c) => c.practiceCode
      case Uncoded(a) => a.practiceCode
    }
  }

  /** `g` is a result for practice `p`: it carries `p`'s code, and hands back `p` itself when unlocated. */
  predicate Answers(g: Geocoded, p: PracticeAdd)
  {
    g.PracticeCode() == p.practiceCode && (g.Uncoded? ==> g.add == p)
  }

  /**
   The codes of a list of located practices. `AddCodes` and `GeocodedCodes`
   are the same projection for the other two record types: the records share
   no supertype, so each list type has its own.
   */
  function CoordsCodes(cs: seq<PracticeCoords>): (r: seq<string>)
    ensures |r| == |cs|
    ensures forall i :: 0 <= i < |cs| ==> r[i] == cs[i].practiceCode
  {
    if |cs| == 0 then [] else [cs[0].practiceCode] + CoordsCodes(cs[1..])
  }

  lemma CoordsCodesAppend(a: seq<PracticeCoords>, b: seq<PracticeCoords>)
    ensures CoordsCodes(a + b) == CoordsCodes(a) + CoordsCodes(b)
  {
  }

  /** The codes of a list of practices to look up (see `CoordsCodes`). */
  function AddCodes(ps: seq<PracticeAdd>): (r: seq<string>)
    ensures |r| == |ps|
    ensures forall i :: 0 <= i < |ps| ==> r[i] == ps[i].practiceCode
  {
    if |ps| == 0 then [] else [ps[0].practiceCode] + AddCodes(ps[1..])
  }

  function GeocodedCodes(rs: seq<Geocoded>): (r: seq<string>)
    ensures |r| == |rs|
    ensures forall i :: 0 <= i < |rs| ==> r[i] == rs[i].PracticeCode()
  {
    if |rs| == 0 then [] else [rs[0].PracticeCode()] + GeocodedCodes(rs[1..])
  }

  /** No practice code occurs twice. */
  predicate DistinctCodes(ps: seq<PracticeAdd>)
  {
    forall i, j :: 0 <= i < j < |ps| ==> ps[i].practiceCode != ps[j].practiceCode
  }
}

=== FILE: geocode_service.dfy ===
/**
 The two external geocoding clients, as oracles.

 - The JSON endpoint read by `geocode_one`: only the reply's `status`
   matters, and an "OK" reply carries the first result's location.
 - The synchronous `googlemaps.Client.geocode`: it raises, returns an empty
   list, or returns results whose first `geometry.location` is an object
   read by key.

 Each oracle takes the number of the request within its phase, so it can
 answer the same address differently over time (rate limiting).
 */
module GeocodeService {
  import opened Retry

  /** A reply of the JSON endpoint, by its `status` field. */
  datatype Reply = Ok(location: Location) | ZeroResults | OtherStatus

  /** `Service(t, a)`: the reply to the phase's `t`-th request, for address `a`. */
  type Service = (nat, string) -> Reply

  /** `geocode_one`'s reading of a reply: "OK" locates, "ZERO_RESULTS" ends the tier, anything else retries. */
  function ClassifyReply(r: Reply): Step
  {
    match r
    case Ok(at) => Hit(at)
    case ZeroResults => Miss
    case OtherStatus => Transient
  }

  /** What one `gmaps.geocode(address)` call does. */
  datatype SyncResponse = Raised | Empty | Located(location: map<string, real>)

  type SyncService = (nat, string) -> SyncResponse

  /**
   `get_coordinates_sync`'s reading of a call: an exception retries, an
   empty list gives up, and a location is read as `loc["lat"]` and
   `loc[lngKey]`, where a missing key raises `KeyError`, which the same
   `except Exception` catches, so it retries too.
   */
  function ReadLocation(r: SyncResponse, lngKey: string): Step
  {
    match r
    case Raised => Transient
    case Empty => Miss
    case Located(loc) =>
      if "lat" in loc && lngKey in loc then Hit(Location(loc["lat"], loc[lngKey])) else Transient
  }

  /** Reading the longitude under `"lng"`, the key the service uses. */
  function ReadLng(r: SyncResponse): Step
  {
    ReadLocation(r, "lng")
  }

  /** Reading the longitude under `"lon"`. */
  function ReadLon(r: SyncResponse): Step
  {
    ReadLocation(r, "lon")
  }

  /**
   The call ends in the `except Exception` branch: the client raised, or
   the location lacks `"lat"` or the longitude key read.
   */
  predicate Raises(r: SyncResponse, lngKey: string)
  {
    r.Raised? || (r.Located? && !("lat" in r.location && lngKey in r.location))
  }

  /** A response shaped as the geocoding service sends it: locations have exactly the keys `lat` and `lng`. */
  predicate WellFormed(r: SyncResponse)
  {
    r.Located? ==> r.location.Keys == {"lat", "lng"}
  }
}

=== FILE: gp_coordinates.dfy ===
/**
 get_gp_coordinates.py, the older geocoder: the same short-then-long
 retry against the JSON endpoint, but on `(code, short, long)` tuples and
 giving `(code, lat, lng)` tuples with `None` for an unlocated practice; a
 synchronous fallback loop over those tuples; and the selection of the
 extracted CSV files by name.
 */
module GpCoordinates {
  import opened Wrappers
  import opened Strings
  import opened Lists
  import opened CoordDataclasses
  import opened Retry
  import opened GeocodeService
  import BatchGeocode

  /** `RETRIES`: requests per address tier in `geocode_one`. */
  const RETRIES: int := 3

  /** `get_coordinates_sync`'s default `retries`, which the fallback loop relies on. */
  const SYNC_RETRIES: int := 3

  /** A row of the address query, `(practice_code, short_address, long_address)`: the same three fields as a `PracticeAdd`. */
  type AddressRow = PracticeAdd

  /** A result tuple `(practice_code, lat, lng)`; `None` where nothing was found. */
  datatype CoordRow = CoordRow(code: string, lat: Option<real>, lng: Option<real>)

  /** Latitude and longitude are both present or both absent. */
  predicate BothOrNeither(row: CoordRow)
  {
    row.lat.Some? <==> row.lng.Some?
  }

  /** The tuple form of a fallback outcome. */
  function RowOf(g: Geocoded): CoordRow
  {
    match g
    case Coded(c) => CoordRow(c.practiceCode, Some(c.lat), Some(c.lon))
    case Uncoded(p) => CoordRow(p.practiceCode, None, None)
  }

  /** `geocode_one`'s request pattern for one address row: `RETRIES` requests per tier at most. */
  function GeocodeOne(svc: Service, a: AddressRow, tick: nat): (run: RecordRun<Reply>)
    ensures Requests(run) <= 2 * RETRIES
    ensures run.long.Some? <==> !run.short.result.Found?
    ensures Answers(run.outcome, a)
  {
    Fallback(svc, ClassifyReply, RETRIES, a, tick)
  }

  /**
   `geocode_one`'s return value: the row's own code, coordinates exactly
   when a tier found some, and `(code, None, None)` when both tiers failed.
   */
  function GeocodeOneRow(svc: Service, a: AddressRow, tick: nat): (row: CoordRow)
    ensures row.code == a.practiceCode
    ensures BothOrNeither(row)
    ensures var run := GeocodeOne(svc, a, tick);
            row.lat.Some? <==> run.short.result.Found? || (run.long.Some? && run.long.value.result.Found?)
    ensures row.lat.None? ==> row == CoordRow(a.practiceCode, None, None)
  {
    RowOf(GeocodeOne(svc, a, tick).outcome)
  }

  /**
   In terms of the replies: no "OK" comes before the last reply, the row
   is located exactly when the last reply is "OK", and then it carries
   that reply's `lat` and `lng`.
   */
  lemma GeocodeOneRowReplies(svc: Service, a: AddressRow, tick: nat)
    ensures var run := GeocodeOne(svc, a, tick);
            var row := GeocodeOneRow(svc, a, tick);
            var rs := BatchGeocode.Replies(run);
            && BatchGeocode.ReplyTier(run.short, RETRIES)
            && (run.long.Some? ==> BatchGeocode.ReplyTier(run.long.value, RETRIES))
            && |rs| <= 2 * RETRIES
            && (forall i :: 0 <= i < |rs| - 1 ==> !rs[i].Ok?)
            && (row.lat.Some? <==> |rs| > 0 && rs[|rs| - 1].Ok?)
            && (row.lat.Some? ==>
                  row == CoordRow(a.practiceCode, Some(rs[|rs| - 1].location.lat), Some(rs[|rs| - 1].location.lng)))
  {
    BatchGeocode.GeocodeOneReplies(svc, RETRIES, a, tick);
  }

  /** The per-record step `batch_geocode` gathers. */
  function GeocodeStep(svc: Service): (PracticeAdd, nat) -> RecordRun<Reply>
  {
    (p: PracticeAdd, t: nat) => GeocodeOne(svc, p, t)
  }

  /** The tuple form of each outcome, in order. */
  function Rows(results: seq<Geocoded>): (rows: seq<CoordRow>)
    ensures |rows| == |results|
  {
    seq(|results|, i requires 0 <= i < |results| => RowOf(results[i]))
  }

  /**
   `batch_geocode`: `geocode_one` on every row, gathered in input order, so
   result `i` carries the code of input `i`.
   */
  function BatchGeocodeRows(svc: Service, addresses: seq<AddressRow>): (rows: seq<CoordRow>)
    ensures |rows| == |addresses|
    ensures forall i :: 0 <= i < |addresses| ==> rows[i].code == addresses[i].practiceCode && BothOrNeither(rows[i])
  {
    SequenceAnswers(GeocodeStep(svc), addresses, 0);
    Rows(Sequence(GeocodeStep(svc), addresses, 0).results)
  }

  /** Row `i` of a sequenced pass is the tuple form of step `i`'s outcome. */
  lemma RowsRecord<R>(one: (PracticeAdd, nat) -> RecordRun<R>, ps: seq<PracticeAdd>, i: nat)
    requires i < |ps|
    ensures Rows(Sequence(one, ps, 0).results)[i] == RowOf(one(ps[i], StartOf(one, ps, 0, i)).outcome)
  {
    SequenceRecord(one, ps, 0, i);
  }

  /** Result `i` of the batch is `geocode_one` on row `i`, with the requests after those of rows `0 .. i - 1`. */
  lemma BatchGeocodeRowsRecord(svc: Service, addresses: seq<AddressRow>, i: nat)
    requires i < |addresses|
    ensures BatchGeocodeRows(svc, addresses)[i] == GeocodeOneRow(svc, addresses[i], StartOf(GeocodeStep(svc), addresses, 0, i))
  {
    RowsRecord(GeocodeStep(svc), addresses, i);
  }

  /** `get_coordinates_sync`'s return value and the tier it ran. */
  datatype Coordinates = Coordinates(lat: Option<real>, lng: Option<real>)

  datatype SyncCoords = SyncCoords(coords: Coordinates, run: TierRun<SyncResponse>)

  /**
   `get_coordinates_sync`: an empty result gives `Coordinates(None, None)`
   at once, an exception (or a location lacking a key) backs off and
   retries, `retries` failures give `Coordinates(None, None)`, and a
   location gives its `lat` and `lng`.
   */
  function GetCoordinatesSync(gmaps: SyncService, address: string, retries: int, tick: nat): (call: SyncCoords)
    ensures |call.run.responses| <= Budget(retries)
    ensures forall i :: 0 <= i < |call.run.responses| ==> call.run.responses[i] == gmaps(tick + i, address)
    ensures retries >= 1 && gmaps(tick, address).Empty? ==>
              call.coords == Coordinates(None, None) && |call.run.responses| == 1 && call.run.delays == []
    ensures call.coords.lat.Some? <==> call.coords.lng.Some?
    ensures call.coords.lat.None? ==> call.coords == Coordinates(None, None)
    ensures call.coords.lat.Some? ==>
              var n := |call.run.responses|;
              && n > 0
              && call.run.responses[n - 1].Located?
              && var loc := call.run.responses[n - 1].location;
                 && "lat" in loc && "lng" in loc
                 && call.coords == Coordinates(Some(loc["lat"]), Some(loc["lng"]))
    ensures call.coords.lat.None? && |call.run.responses| < Budget(retries) ==>
              |call.run.responses| > 0 && call.run.responses[|call.run.responses| - 1].Empty?
    ensures forall i :: 0 <= i < |call.run.responses| - 1 ==> Raises(call.run.responses[i], "lng")
    ensures forall i :: 0 <= i < |call.run.delays| ==> call.run.delays[i] == Pow2(i)
    ensures var n := |call.run.responses|;
            |call.run.delays| == if call.coords.lat.None? && (n == 0 || !call.run.responses[n - 1].Empty?) then n else n - 1
  {
    var run := Tier(gmaps, address, tick, ReadLng, retries);
    SyncCoords(if run.result.Found? then Coordinates(Some(run.result.at.lat), Some(run.result.at.lng)) else Coordinates(None, None), run)
  }

  /** What the fallback loop did for one entry: the entry after it, and the calls it made. */
  datatype Rescue = Rescue(row: CoordRow, short: Option<SyncCoords>, long: Option<SyncCoords>)

  function RescueRequests(r: Rescue): nat
  {
    (if r.short.Some? then |r.short.value.run.responses| else 0) + (if r.long.Some? then |r.long.value.run.responses| else 0)
  }

  /**
   The fallback changes an entry only by filling in both coordinates of an
   entry that had neither, and keeps its code.
   */
  predicate RescuedFrom(before: CoordRow, after: CoordRow)
  {
    && after.code == before.code
    && (!(before.lat.None? && before.lng.None?) ==> after == before)
    && (after != before ==> before.lat.None? && before.lng.None? && after.lat.Some? && after.lng.Some?)
  }

  /**
   One iteration of the fallback loop in `main`: an entry with neither
   coordinate is looked up by its short address, then by its long address
   if the first call gave `lat is None`, and replaced when a call found it.
   */
  function RescueOne(gmaps: SyncService, a: AddressRow, row: CoordRow, tick: nat): (r: Rescue)
    ensures RescuedFrom(row, r.row)
    ensures RescueRequests(r) <= 2 * SYNC_RETRIES
  {
    if row.lat.None? && row.lng.None? then
      var c := GetCoordinatesSync(gmaps, a.shortAddr, SYNC_RETRIES, tick);
      if c.coords.lat.None? then
        var c' := GetCoordinatesSync(gmaps, a.longAddr, SYNC_RETRIES, tick + |c.run.responses|);
        Rescue(if c'.coords.lat.Some? then CoordRow(row.code, c'.coords.lat, c'.coords.lng) else row, Some(c), Some(c'))
      else
        Rescue(CoordRow(row.code, c.coords.lat, c.coords.lng), Some(c), None)
    else
      Rescue(row, None, None)
  }

  /**
   The calls one iteration makes: none for an entry that has a coordinate;
   otherwise the short address first, the long address exactly when the
   short one gave `lat is None`, and an entry left as it was only when both
   calls gave `Coordinates(None, None)`.
   */
  lemma RescueOneCalls(gmaps: SyncService, a: AddressRow, row: CoordRow, tick: nat)
    ensures var r := RescueOne(gmaps, a, row, tick);
            && (!(row.lat.None? && row.lng.None?) ==> r == Rescue(row, None, None))
            && (row.lat.None? && row.lng.None? ==> r.short == Some(GetCoordinatesSync(gmaps, a.shortAddr, SYNC_RETRIES, tick)))
            && (r.long.Some? <==> r.short.Some? && r.short.value.coords.lat.None?)
            && (r.long.Some? ==>
                  r.long.value == GetCoordinatesSync(gmaps, a.longAddr, SYNC_RETRIES, tick + |r.short.value.run.responses|))
            && (row.lat.None? && row.lng.None? && r.row == row ==>
                  r.long.Some? && r.long.value.coords == Coordinates(None, None))
            && (r.row != row ==>
                  r.row == CoordRow(row.code, (if r.long.Some? then r.long.value else r.short.value).coords.lat,
                                              (if r.long.Some? then r.long.value else r.short.value).coords.lng))
  {
  }

  /** The number of positions where two lists of the same length differ. */
  function Changed(before: seq<CoordRow>, after: seq<CoordRow>): (n: nat)
    requires |before| == |after|
    ensures n <= |before|
    ensures n == 0 <==> before == after
  {
    if |before| == 0 then 0
    else
      var k := |before| - 1;
      assert before == before[..k] + [before[k]] && after == after[..k] + [after[k]];
      Changed(before[..k], after[..k]) + if before[k] != after[k] then 1 else 0
  }

  lemma ChangedStep(before: seq<CoordRow>, after: seq<CoordRow>, x: CoordRow, y: CoordRow)
    requires |before| == |after|
    ensures Changed(before + [x], after + [y]) == Changed(before, after) + if x != y then 1 else 0
  {
    assert (before + [x])[..|before|] == before;
    assert (after + [y])[..|after|] == after;
  }

  /** What the fallback loop has done after its first `i` entries. */
  predicate FillInState(rescue: (AddressRow, CoordRow, nat) -> Rescue, b: nat, addresses: seq<AddressRow>,
                        coords: seq<CoordRow>, i: nat, out: seq<CoordRow>, rescued: nat, starts: seq<nat>, requests: nat)
  {
    && i <= |coords| <= |addresses|
    && |out| == i && |starts| == i
    && (forall j :: 0 <= j < i ==> out[j] == rescue(addresses[j], coords[j], starts[j]).row)
    && rescued == Changed(coords[..i], out)
    && requests <= b * i
  }

  /**
   The requests run on from one entry to the next: entry 0 starts at request
   0, each later entry where the one before it stopped, and `requests` is
   where the last one stopped.
   */
  predicate Chained(rescue: (AddressRow, CoordRow, nat) -> Rescue, addresses: seq<AddressRow>, coords: seq<CoordRow>,
                    starts: seq<nat>, requests: nat)
    requires |starts| <= |coords| <= |addresses|
  {
    && (|starts| > 0 ==> starts[0] == 0)
    && (forall j :: 0 <= j < |starts| - 1 ==>
          starts[j + 1] == starts[j] + RescueRequests(rescue(addresses[j], coords[j], starts[j])))
    && requests == if |starts| == 0 then 0 else
         var k := |starts| - 1; starts[k] + RescueRequests(rescue(addresses[k], coords[k], starts[k]))
  }

  /** One iteration of the fallback loop keeps `Chained`. */
  lemma ChainStep(rescue: (AddressRow, CoordRow, nat) -> Rescue, addresses: seq<AddressRow>, coords: seq<CoordRow>,
                  starts: seq<nat>, requests: nat)
    requires |starts| < |coords| <= |addresses|
    requires Chained(rescue, addresses, coords, starts, requests)
    ensures var i := |starts|;
            Chained(rescue, addresses, coords, starts + [requests],
                    requests + RescueRequests(rescue(addresses[i], coords[i], requests)))
  {
    var starts' := starts + [requests];
    assert forall j :: 0 <= j < |starts| ==> starts'[j] == starts[j];
  }

  /** One iteration of the fallback loop keeps `FillInState`. */
  lemma FillInStep(rescue: (AddressRow, CoordRow, nat) -> Rescue, b: nat, addresses: seq<AddressRow>,
                   coords: seq<CoordRow>, i: nat, out: seq<CoordRow>, rescued: nat, starts: seq<nat>, requests: nat)
    requires FillInState(rescue, b, addresses, coords, i, out, rescued, starts, requests)
    requires i < |coords|
    requires RescueRequests(rescue(addresses[i], coords[i], requests)) <= b
    ensures var r := rescue(addresses[i], coords[i], requests);
            FillInState(rescue, b, addresses, coords, i + 1, out + [r.row],
                        rescued + (if r.row != coords[i] then 1 else 0), starts + [requests], requests + RescueRequests(r))
  {
    var r := rescue(addresses[i], coords[i], requests);
    ChangedStep(coords[..i], out, coords[i], r.row);
    assert coords[..i + 1] == coords[..i] + [coords[i]];
    assert b * (i + 1) == b * i + b;
    var out', starts' := out + [r.row], starts + [requests];
    assert forall j :: 0 <= j < i ==> out'[j] == out[j] && starts'[j] == starts[j];
  }

  /**
   The loop `for idx, (code, lat, lon) in enumerate(coords)` with its
   body `rescue`: each entry is replaced by what `rescue` makes of it, and
   the requests run on from one entry to the next. `starts[j]` is the
   number of the first request made for entry `j`.
   */
  method FillIn(rescue: (AddressRow, CoordRow, nat) -> Rescue, b: nat, addresses: seq<AddressRow>, coords: seq<CoordRow>)
    returns (out: seq<CoordRow>, rescued: nat, starts: seq<nat>, requests: nat)
    requires |coords| <= |addresses|
    requires forall a, row, t :: RescuedFrom(row, rescue(a, row, t).row) && RescueRequests(rescue(a, row, t)) <= b
    ensures |out| == |coords| && |starts| == |coords|
    ensures forall j :: 0 <= j < |coords| ==> out[j] == rescue(addresses[j], coords[j], starts[j]).row
    ensures forall j :: 0 <= j < |coords| ==> RescuedFrom(coords[j], out[j])
    ensures rescued == Changed(coords, out)
    ensures requests <= b * |coords|
    ensures |coords| > 0 ==> starts[0] == 0
    ensures forall j :: 0 <= j < |coords| - 1 ==>
              starts[j + 1] == starts[j] + RescueRequests(rescue(addresses[j], coords[j], starts[j]))
    ensures requests == if |coords| == 0 then 0 else
              starts[|coords| - 1] + RescueRequests(rescue(addresses[|coords| - 1], coords[|coords| - 1], starts[|coords| - 1]))
  {
    out, rescued, starts, requests := [], 0, [], 0;
    var i := 0;
    while i < |coords|
      invariant FillInState(rescue, b, addresses, coords, i, out, rescued, starts, requests)
      invariant Chained(rescue, addresses, coords, starts, requests)
    {
      var r := rescue(addresses[i], coords[i], requests);
      FillInStep(rescue, b, addresses, coords, i, out, rescued, starts, requests);
      ChainStep(rescue, addresses, coords, starts, requests);
      out, starts := out + [r.row], starts + [requests];
      rescued := rescued + if r.row != coords[i] then 1 else 0;
      requests := requests + RescueRequests(r);
      i := i + 1;
    }
    assert coords[..i] == coords;
    forall j | 0 <= j < |coords|
      ensures RescuedFrom(coords[j], out[j])
    {
      assert out[j] == rescue(addresses[j], coords[j], starts[j]).row;
    }
  }

  /**
   The sync fallback loop of `main`: only entries with neither coordinate
   are changed, each to the coordinates a call found, `rescued` counts the
   changed entries, and each entry costs at most two calls' worth of
   requests.
   */
  method SyncFallback(gmaps: SyncService, addresses: seq<AddressRow>, coords: seq<CoordRow>)
    returns (out: seq<CoordRow>, rescued: nat, starts: seq<nat>, requests: nat)
    requires |coords| <= |addresses|
    ensures |out| == |coords| && |starts| == |coords|
    ensures forall j :: 0 <= j < |coords| ==> out[j] == RescueOne(gmaps, addresses[j], coords[j], starts[j]).row
    ensures forall j :: 0 <= j < |coords| ==> RescuedFrom(coords[j], out[j])
    ensures rescued == Changed(coords, out)
    ensures requests <= 2 * SYNC_RETRIES * |coords|
    ensures |coords| > 0 ==> starts[0] == 0
    ensures forall j :: 0 <= j < |coords| - 1 ==>
              starts[j + 1] == starts[j] + RescueRequests(RescueOne(gmaps, addresses[j], coords[j], starts[j]))
    ensures requests == if |coords| == 0 then 0 else
              starts[|coords| - 1] + RescueRequests(RescueOne(gmaps, addresses[|coords| - 1], coords[|coords| - 1], starts[|coords| - 1]))
  {
    out, rescued, starts, requests := FillIn((a: AddressRow, row: CoordRow, t: nat) => RescueOne(gmaps, a, row, t), 2 * SYNC_RETRIES, addresses, coords);
  }

  /** A rescue keeps a row with both or neither coordinate in that shape. */
  lemma RescueKeepsShape(gmaps: SyncService, a: AddressRow, row: CoordRow, tick: nat)
    requires BothOrNeither(row)
    ensures BothOrNeither(RescueOne(gmaps, a, row, tick).row)
  {
  }

  /** A path, by its final component `name` (`Path.name`). */
  datatype FilePath = FilePath(parent: string, name: string)

  /** The index of the last `.` in `s`, if any. */
  function LastDot(s: string): (r: Option<nat>)
    ensures r.Some? ==> r.value < |s| && s[r.value] == '.' && forall k :: r.value < k < |s| ==> s[k] != '.'
    ensures r.None? ==> forall k :: 0 <= k < |s| ==> s[k] != '.'
    decreases |s|
  {
    if |s| == 0 then None
    else if s[|s| - 1] == '.' then Some(|s| - 1)
    else LastDot(s[..|s| - 1])
  }

  /** `Path.suffix`: from the last dot, unless the dot leads or ends the name. */
  function Suffix(name: string): string
  {
    match LastDot(name)
    case Some(i) => if 0 < i < |name| - 1 then name[i..] else ""
    case None => ""
  }

  /** A name has suffix `.csv` exactly when it ends in `.csv` after at least one other character. */
  lemma SuffixCsv(name: string)
    ensures Suffix(name) == ".csv" <==> |name| > 4 && EndsWith(name, ".csv")
  {
    var n := |name|;
    if Suffix(name) == ".csv" {
      var i := LastDot(name).value;
      assert name[i..] == ".csv";
      assert n - i == 4;
    }
    if n > 4 && EndsWith(name, ".csv") {
      assert name[n - 4..] == ".csv";
      assert name[n - 4] == '.' && name[n - 3] == 'c' && name[n - 2] == 's' && name[n - 1] == 'v';
      assert LastDot(name) == Some(n - 4);
    }
  }

  /** `term in f.name.lower()` for some term. */
  predicate NameMatches(name: string, terms: seq<string>)
  {
    exists k :: 0 <= k < |terms| && Contains(Lower(name), terms[k])
  }

  predicate IsTarget(f: FilePath, terms: seq<string>)
  {
    Suffix(f.name) == ".csv" && NameMatches(f.name, terms)
  }

  /**
   `find_target_files`: the CSV files whose lower-cased name contains one
   of the terms, in their original order.
   */
  function FindTargetFiles(files: seq<FilePath>, terms: seq<string>): (r: seq<FilePath>)
    ensures IsSubsequence(r, files)
    ensures forall i :: 0 <= i < |r| ==> Suffix(r[i].name) == ".csv" && NameMatches(r[i].name, terms)
    ensures forall i :: 0 <= i < |files| && IsTarget(files[i], terms) ==> files[i] in r
    ensures forall f :: multiset(r)[f] == if IsTarget(f, terms) then multiset(files)[f] else 0
  {
    Filter(f => IsTarget(f, terms), files)
  }

  /** With no terms, no file is kept. */
  lemma NoTermsNoFiles(files: seq<FilePath>)
    ensures FindTargetFiles(files, []) == []
  {
    FilterNone(f => IsTarget(f, []), files);
  }
}

=== FILE: lists.dfy ===
/** Python list facts: comprehension filters, order-preserving sublists, distinctness. */
module Lists {

  /** `a` is `b` with some elements dropped and the rest kept in order. */
  predicate IsSubsequence<T(==)>(a: seq<T>, b: seq<T>)
    decreases |b|
  {
    |a| == 0 || (|b| > 0 && if a[0] == b[0] then IsSubsequence(a[1..], b[1..]) else IsSubsequence(a, b[1..]))
  }

  function Filter<T(==,!new)>(p: T -> bool, xs: seq<T>): (r: seq<T>)
    ensures forall i :: 0 <= i < |r| ==> p(r[i]) && r[i] in xs
    ensures forall i :: 0 <= i < |xs| && p(xs[i]) ==> xs[i] in r
    ensures IsSubsequence(r, xs)
    ensures |r| <= |xs|
    ensures forall x :: multiset(r)[x] == if p(x) then multiset(xs)[x] else 0
  {
    if |xs| == 0 then []
    else
      assert xs == [xs[0]] + xs[1..];
      if p(xs[0]) then [xs[0]] + Filter(p, xs[1..])
      else Filter(p, xs[1..])
  }

  /** A filter whose predicate holds of every element keeps everything. */
  lemma FilterAll<T(!new)>(p: T -> bool, xs: seq<T>)
    requires forall x :: x in xs ==> p(x)
    ensures Filter(p, xs) == xs
  {
    if |xs| > 0 {
      FilterAll(p, xs[1..]);
    }
  }

  /** A filter whose predicate holds of no element keeps nothing. */
  lemma FilterNone<T(!new)>(p: T -> bool, xs: seq<T>)
    requires forall x :: x in xs ==> !p(x)
    ensures Filter(p, xs) == []
  {
    if |xs| > 0 {
      FilterNone(p, xs[1..]);
    }
  }

  /** Skipping the head of `b` keeps a sublist a sublist. */
  lemma {:induction false} SubsequenceOfTail<T>(a: seq<T>, b: seq<T>)
    requires |b| > 0 && IsSubsequence(a, b[1..])
    ensures IsSubsequence(a, b)
    decreases |b|, |a|
  {
    if |a| > 0 && a[0] == b[0] {
      SubsequenceDropHead(a, b[1..]);
    }
  }

  /** Dropping the head of a sublist keeps it a sublist. */
  lemma {:induction false} SubsequenceDropHead<T>(a: seq<T>, b: seq<T>)
    requires |a| > 0 && IsSubsequence(a, b)
    ensures IsSubsequence(a[1..], b)
    decreases |b|, |a|
  {
    if a[0] == b[0] {
      if |a[1..]| > 0 {
        SubsequenceOfTail(a[1..], b);
      }
    } else {
      SubsequenceDropHead(a, b[1..]);
      SubsequenceOfTail(a[1..], b);
    }
  }

  /** Every element of a sublist is an element of the list. */
  lemma {:induction false} SubsequenceMembers<T>(a: seq<T>, b: seq<T>)
    requires IsSubsequence(a, b)
    ensures forall x :: x in a ==> x in b
    decreases |b|
  {
    if |a| > 0 {
      if a[0] == b[0] {
        SubsequenceMembers(a[1..], b[1..]);
        assert a == [a[0]] + a[1..];
      } else {
        SubsequenceMembers(a, b[1..]);
      }
    }
  }

  /** A list without repeats holds each value at most once. */
  lemma {:induction false} DistinctMultiplicity<T>(s: seq<T>, x: T)
    requires forall i, j :: 0 <= i < j < |s| ==> s[i] != s[j]
    ensures multiset(s)[x] <= 1
  {
    if |s| > 0 {
      DistinctMultiplicity(s[1..], x);
      assert s == [s[0]] + s[1..];
      if s[0] == x {
        assert x !in s[1..];
      }
    }
  }
}

=== FILE: retry.dfy ===
/**
 The retry loop both geocoding clients run for one address, and the
 short-then-long address fallback built on it.

 One address tier is `for attempt in range(retries)`: ask the service once,
 stop on a location or on a confirmed "no match", otherwise sleep
 `2**attempt * 0.1` seconds and ask again. The sleep also follows the last
 attempt. Delays are recorded in units of 100 ms, so the sleep after
 attempt `k` is `Pow2(k)` units.

 The service is a parameter: `ask(t, a)` is its response to the run's
 `t`-th request, for address `a`, and `classify` says what the client makes
 of a response.
 */
module Retry {
  import opened Wrappers
  import opened CoordDataclasses

  datatype Location = Location(lat: real, lng: real)

  /** What the client makes of one response. */
  datatype Step = Hit(at: Location) | Miss | Transient

  /** How a tier ended. */
  datatype TierResult = Found(at: Location) | NoMatch | Exhausted

  /** One tier: its result, the responses in request order, the backoff sleeps in order. */
  datatype TierRun<R> = TierRun(result: TierResult, responses: seq<R>, delays: seq<nat>)

  /** The tier result a final response leads to. */
  function Outcome(s: Step): TierResult
  {
    match s
    case Hit(at) => Found(at)
    case Miss => NoMatch
    case Transient => Exhausted
  }

  function Pow2(k: nat): (r: nat)
    ensures r >= 1
  {
    if k == 0 then 1 else 2 * Pow2(k - 1)
  }

  /** The number of iterations of `range(retries)`. */
  function Budget(retries: int): nat
  {
    if retries > 0 then retries else 0
  }

  /**
   Attempts `attempt`, `attempt + 1`, ... of the tier for `address`, whose
   first request is the run's request number `tick`.
   */
  function Attempts<R(==)>(ask: (nat, string) -> R, address: string, tick: nat, classify: R -> Step, retries: int, attempt: nat): (run: TierRun<R>)
    decreases retries - attempt
    ensures |run.responses| <= Budget(retries - attempt)
    ensures forall i :: 0 <= i < |run.responses| ==> run.responses[i] == ask(tick + attempt + i, address)
    ensures forall i :: 0 <= i < |run.responses| - 1 ==> classify(run.responses[i]).Transient?
    ensures |run.responses| == 0 ==> run.result == Exhausted && retries <= attempt
    ensures |run.responses| > 0 ==> run.result == Outcome(classify(run.responses[|run.responses| - 1]))
    ensures run.result.Exhausted? ==> |run.responses| == Budget(retries - attempt)
    ensures |run.delays| == if run.result.Exhausted? then |run.responses| else |run.responses| - 1
    ensures forall i :: 0 <= i < |run.delays| ==> run.delays[i] == Pow2(attempt + i)
  {
    if retries <= attempt then TierRun(Exhausted, [], [])
    else
      var response := ask(tick + attempt, address);
      match classify(response)
      case Hit(at) => TierRun(Found(at), [response], [])
      case Miss => TierRun(NoMatch, [response], [])
      case Transient =>
        var rest := Attempts(ask, address, tick, classify, retries, attempt + 1);
        TierRun(rest.result, [response] + rest.responses, [Pow2(attempt)] + rest.delays)
  }

  /** A whole tier, from attempt 0. */
  function Tier<R(==)>(ask: (nat, string) -> R, address: string, tick: nat, classify: R -> Step, retries: int): TierRun<R>
  {
    Attempts(ask, address, tick, classify, retries, 0)
  }

  lemma {:induction false} Pow2Increasing(i: nat, j: nat)
    requires i < j
    ensures Pow2(i) < Pow2(j)
    decreases j
  {
    if i < j - 1 {
      Pow2Increasing(i, j - 1);
    }
  }

  /** The backoff sleeps of one tier grow strictly. */
  lemma TierDelaysIncrease<R>(ask: (nat, string) -> R, address: string, tick: nat, classify: R -> Step, retries: int)
    ensures var run := Tier(ask, address, tick, classify, retries);
            forall i, j :: 0 <= i < j < |run.delays| ==> run.delays[i] < run.delays[j]
  {
    var run := Tier(ask, address, tick, classify, retries);
    forall i, j | 0 <= i < j < |run.delays|
      ensures run.delays[i] < run.delays[j]
    {
      Pow2Increasing(i, j);
    }
  }

  /**
   A service that fails transiently `k` times and then answers is asked
   `k + 1` times, provided `k < retries`, and the client slept
   1, 2, 4, ... units in between.
   */
  lemma {:induction false} TransientThenHit<R>(ask: (nat, string) -> R, address: string, tick: nat, classify: R -> Step, retries: int, k: nat, attempt: nat)
    requires attempt <= k < retries
    requires forall t :: tick + attempt <= t < tick + k ==> classify(ask(t, address)).Transient?
    requires classify(ask(tick + k, address)).Hit?
    ensures var run := Attempts(ask, address, tick, classify, retries, attempt);
            && run.result == Found(classify(ask(tick + k, address)).at)
            && |run.responses| == k + 1 - attempt
            && |run.delays| == k - attempt
    decreases k - attempt
  {
    if attempt < k {
      TransientThenHit(ask, address, tick, classify, retries, k, attempt + 1);
    }
  }

  /** A "no match" on the first attempt ends the tier after one request and no sleep. */
  lemma MissEndsTier<R>(ask: (nat, string) -> R, address: string, tick: nat, classify: R -> Step, retries: int)
    requires retries >= 1
    requires classify(ask(tick, address)).Miss?
    ensures var run := Tier(ask, address, tick, classify, retries);
            run.result == NoMatch && |run.responses| == 1 && run.delays == []
  {
  }

  /** One record: the short-address tier, then the long-address tier if needed. */
  datatype RecordRun<R> = RecordRun(outcome: Geocoded, short: TierRun<R>, long: Option<TierRun<R>>)

  function Requests<R>(run: RecordRun<R>): nat
  {
    |run.short.responses| + if run.long.Some? then |run.long.value.responses| else 0
  }

  function Locate(p: PracticeAdd, at: Location): PracticeCoords
  {
    PracticeCoords(p.practiceCode, at.lat, at.lng)
  }

  /**
   Try the short address, then the long one, each with `retries` attempts.
   `ask(t, a)` is the service's response to the run's `t`-th request, for
   address `a`; the record's first request is number `tick`.
   */
  function Fallback<R(==)>(ask: (nat, string) -> R, classify: R -> Step, retries: int, p: PracticeAdd, tick: nat): (run: RecordRun<R>)
    ensures forall i :: 0 <= i < |run.short.responses| ==> run.short.responses[i] == ask(tick + i, p.shortAddr)
    ensures run.long.Some? <==> !run.short.result.Found?
    ensures run.long.Some? ==>
              forall i :: 0 <= i < |run.long.value.responses| ==>
                run.long.value.responses[i] == ask(tick + |run.short.responses| + i, p.longAddr)
    ensures Requests(run) <= 2 * Budget(retries)
    ensures run.short.result.Found? ==> run.outcome == Coded(Locate(p, run.short.result.at))
    ensures run.long.Some? && run.long.value.result.Found? ==> run.outcome == Coded(Locate(p, run.long.value.result.at))
    ensures run.long.Some? && !run.long.value.result.Found? ==> run.outcome == Uncoded(p)
    ensures run.outcome.PracticeCode() == p.practiceCode
    ensures run.short == Tier(ask, p.shortAddr, tick, classify, retries)
    ensures run.long.Some? ==> run.long.value == Tier(ask, p.longAddr, tick + |run.short.responses|, classify, retries)
  {
    var short := Tier(ask, p.shortAddr, tick, classify, retries);
    if short.result.Found? then
      RecordRun(Coded(Locate(p, short.result.at)), short, None)
    else
      var long := Tier(ask, p.longAddr, tick + |short.responses|, classify, retries);
      if long.result.Found? then RecordRun(Coded(Locate(p, long.result.at)), short, Some(long))
      else RecordRun(Uncoded(p), short, Some(long))
  }

  /** A property every tier of this service has holds of both tiers of a record. */
  lemma FallbackTiers<R>(ask: (nat, string) -> R, classify: R -> Step, retries: int, p: PracticeAdd, tick: nat,
                             good: TierRun<R> -> bool)
    requires forall address: string, t: nat :: good(Tier(ask, address, t, classify, retries))
    ensures var run := Fallback(ask, classify, retries, p, tick);
            good(run.short) && (run.long.Some? ==> good(run.long.value))
  {
  }

  /** A pass over a list of practices: one result per practice, in list order, and the requests the pass made. */
  datatype Phase = Phase(results: seq<Geocoded>, requests: nat)

  /**
   Run `one` on each practice in turn; each record's first request follows
   the last request of the record before it.
   */
  function Sequence<R>(one: (PracticeAdd, nat) -> RecordRun<R>, ps: seq<PracticeAdd>, tick: nat): (phase: Phase)
    ensures |phase.results| == |ps|
    decreases |ps|
  {
    if |ps| == 0 then Phase([], 0)
    else
      var first := one(ps[0], tick);
      var rest := Sequence(one, ps[1..], tick + Requests(first));
      Phase([first.outcome] + rest.results, Requests(first) + rest.requests)
  }

  /** The number of the first request practice `i` makes: the pass's first, plus what practices `0 .. i - 1` asked. */
  function StartOf<R>(one: (PracticeAdd, nat) -> RecordRun<R>, ps: seq<PracticeAdd>, tick: nat, i: nat): nat
    requires i <= |ps|
  {
    tick + Sequence(one, ps[..i], tick).requests
  }

  /** Result `i` of a pass is what `one` made of practice `i`, starting after the requests of practices `0 .. i - 1`. */
  lemma {:induction false} SequenceRecord<R>(one: (PracticeAdd, nat) -> RecordRun<R>, ps: seq<PracticeAdd>, tick: nat, i: nat)
    requires i < |ps|
    ensures Sequence(one, ps, tick).results[i] == one(ps[i], StartOf(one, ps, tick, i)).outcome
    decreases i
  {
    if i > 0 {
      var next := tick + Requests(one(ps[0], tick));
      SequenceRecord(one, ps[1..], next, i - 1);
      var prefix := ps[..i];
      assert prefix[0] == ps[0] && prefix[1..] == ps[1..][..i - 1];
      assert ps[1..][i - 1] == ps[i];
    }
  }

  /** A pass whose records each cost at most `b` requests costs at most `b` per practice. */
  lemma {:induction false} SequenceRequests<R>(one: (PracticeAdd, nat) -> RecordRun<R>, ps: seq<PracticeAdd>, tick: nat, b: nat)
    requires forall p, t :: Requests(one(p, t)) <= b
    ensures Sequence(one, ps, tick).requests <= b * |ps|
    decreases |ps|
  {
    if |ps| > 0 {
      SequenceRequests(one, ps[1..], tick + Requests(one(ps[0], tick)), b);
      assert b * |ps| == b * (|ps| - 1) + b;
    }
  }

  /** A pass whose records each answer for their own practice answers for every practice, in order. */
  lemma SequenceAnswers<R>(one: (PracticeAdd, nat) -> RecordRun<R>, ps: seq<PracticeAdd>, tick: nat)
    requires forall p, t :: Answers(one(p, t).outcome, p)
    ensures forall i :: 0 <= i < |ps| ==> Answers(Sequence(one, ps, tick).results[i], ps[i])
  {
    forall i | 0 <= i < |ps|
      ensures Answers(Sequence(one, ps, tick).results[i], ps[i])
    {
      SequenceRecord(one, ps, tick, i);
    }
  }
}

=== FILE: sorting.dfy ===
/**
 Python's `sorted(xs, reverse=True)` on a list of `str`, and on a `set` of
 `str` (which yields each element once, strictly descending).
 */
module Sorting {
  import opened Strings

  /** Every later element is `<=` every earlier one. */
  predicate SortedDesc(xs: seq<string>)
  {
    forall i, j :: 0 <= i < j < |xs| ==> Leq(xs[j], xs[i])
  }

  /** Every later element is `<` every earlier one, so no element repeats. */
  predicate StrictlyDesc(xs: seq<string>)
  {
    forall i, j :: 0 <= i < j < |xs| ==> Lt(xs[j], xs[i])
  }

  /** A head no smaller than every later element extends a descending list. */
  lemma ConsSorted(h: string, rest: seq<string>)
    requires SortedDesc(rest)
    requires forall j :: 0 <= j < |rest| ==> Leq(rest[j], h)
    ensures SortedDesc([h] + rest)
  {
    forall i, j | 0 <= i < j < |[h] + rest|
      ensures Leq(([h] + rest)[j], ([h] + rest)[i])
    {
      if i > 0 {
        assert ([h] + rest)[j] == rest[j - 1] && ([h] + rest)[i] == rest[i - 1];
      } else {
        assert ([h] + rest)[j] == rest[j - 1];
      }
    }
  }

  /** Every element of a descending list is below an `x` its head is below. */
  lemma BelowHead(x: string, xs: seq<string>)
    requires SortedDesc(xs) && |xs| > 0 && Leq(xs[0], x)
    ensures forall j :: 0 <= j < |xs| ==> Leq(xs[j], x)
  {
    forall j | 0 <= j < |xs| ensures Leq(xs[j], x) {
      if j > 0 {
        LeqTransitive(xs[j], xs[0], x);
      }
    }
  }

  /** Inserting an `x` above which the head sits keeps everything below the head. */
  lemma InsertedBelowHead(x: string, xs: seq<string>, rest: seq<string>)
    requires SortedDesc(xs) && |xs| > 0 && !Leq(xs[0], x)
    requires multiset(rest) == multiset(xs[1..]) + multiset{x}
    ensures forall j :: 0 <= j < |rest| ==> Leq(rest[j], xs[0])
  {
    forall j | 0 <= j < |rest| ensures Leq(rest[j], xs[0]) {
      assert rest[j] in multiset(rest);
      if rest[j] == x {
        NotLeqIsGreater(xs[0], x);
      } else {
        assert rest[j] in multiset(xs[1..]);
        var k :| 0 <= k < |xs[1..]| && xs[1..][k] == rest[j];
        assert xs[k + 1] == rest[j];
      }
    }
  }

  function InsertDesc(x: string, xs: seq<string>): (r: seq<string>)
    requires SortedDesc(xs)
    ensures SortedDesc(r)
    ensures multiset(r) == multiset(xs) + multiset{x}
  {
    if |xs| == 0 then [x]
    else if Leq(xs[0], x) then
      BelowHead(x, xs);
      ConsSorted(x, xs);
      [x] + xs
    else
      var rest := InsertDesc(x, xs[1..]);
      assert xs == [xs[0]] + xs[1..];
      InsertedBelowHead(x, xs, rest);
      ConsSorted(xs[0], rest);
      [xs[0]] + rest
  }

  /** `sorted(xs, reverse=True)`: duplicates are kept. */
  function SortDesc(xs: seq<string>): (r: seq<string>)
    ensures SortedDesc(r)
    ensures multiset(r) == multiset(xs)
  {
    if |xs| == 0 then []
    else
      assert xs == [xs[0]] + xs[1..];
      InsertDesc(xs[0], SortDesc(xs[1..]))
  }

  function InsertUniqueDesc(x: string, xs: seq<string>): (r: seq<string>)
    requires StrictlyDesc(xs)
    ensures StrictlyDesc(r)
    ensures forall y :: y in r <==> y in xs || y == x
  {
    if |xs| == 0 then [x]
    else if xs[0] == x then xs
    else if Leq(xs[0], x) then
      assert forall j :: 0 <= j < |xs| ==> Lt(xs[j], x) by {
        forall j | 0 <= j < |xs| ensures Lt(xs[j], x) {
          if j > 0 {
            LtTransitive(xs[j], xs[0], x);
          }
        }
      }
      [x] + xs
    else
      var rest := InsertUniqueDesc(x, xs[1..]);
      assert forall j :: 0 <= j < |rest| ==> Lt(rest[j], xs[0]) by {
        forall j | 0 <= j < |rest| ensures Lt(rest[j], xs[0]) {
          if rest[j] == x {
            NotLeqIsGreater(xs[0], x);
          } else {
            assert rest[j] in xs[1..];
            var k :| 0 <= k < |xs[1..]| && xs[1..][k] == rest[j];
            assert xs[k + 1] == rest[j];
          }
        }
      }
      [xs[0]] + rest
  }

  /** `sorted(set(xs), reverse=True)`: each distinct element once. */
  function SortedSetDesc(xs: seq<string>): (r: seq<string>)
    ensures StrictlyDesc(r)
    ensures forall y :: y in r <==> y in xs
  {
    if |xs| == 0 then [] else InsertUniqueDesc(xs[0], SortedSetDesc(xs[1..]))
  }
}

=== FILE: state_management.dfy ===
/**
 The dashboard's selection rules (visualization/state_management.py): which
 bucket options are enabled, which bucket value the dropdown shows, and the
 two-column plot data built from a joined achievement table.

 A DataFrame is a sequence of rows; `None` stands for a NULL cell.
 */
module StateManagement {
  import opened Wrappers
  import opened Lists
  import opened Sorting

  /**
   `BucketOption`: one entry of the bucket dropdown. `text` is the display
   label; `disabled == None` means enabled, and so does a missing key.
   */
  datatype BucketOption = BucketOption(text: string, value: string, disabled: Option<bool>)

  /** `not opt.get("disabled", False)`: only an explicit `True` disables. */
  predicate Enabled(o: BucketOption)
  {
    o.disabled != Some(true)
  }

  /** Some enabled option carries this value. */
  predicate HasEnabled(opts: seq<BucketOption>, v: string)
  {
    exists i :: 0 <= i < |opts| && opts[i].value == v && Enabled(opts[i])
  }

  /** `get_enabled_buckets`: the enabled options, in their original order. */
  function GetEnabledBuckets(opts: seq<BucketOption>): (r: seq<BucketOption>)
    ensures IsSubsequence(r, opts)
    ensures forall i :: 0 <= i < |r| ==> Enabled(r[i])
    ensures forall i :: 0 <= i < |opts| && Enabled(opts[i]) ==> opts[i] in r
    ensures forall o :: multiset(r)[o] == if Enabled(o) then multiset(opts)[o] else 0
  {
    Filter(Enabled, opts)
  }

  /** Filtering keeps exactly the values some enabled option carries. */
  lemma EnabledValues(opts: seq<BucketOption>, v: string)
    ensures HasEnabled(GetEnabledBuckets(opts), v) <==> HasEnabled(opts, v)
  {
    var r := GetEnabledBuckets(opts);
    if HasEnabled(opts, v) {
      var i :| 0 <= i < |opts| && opts[i].value == v && Enabled(opts[i]);
      var k :| 0 <= k < |r| && r[k] == opts[i];
    }
    if HasEnabled(r, v) {
      var k :| 0 <= k < |r| && r[k].value == v && Enabled(r[k]);
      var i :| 0 <= i < |opts| && opts[i] == r[k];
    }
  }

  /** Filtering twice is filtering once. */
  lemma GetEnabledBucketsIdempotent(opts: seq<BucketOption>)
    ensures GetEnabledBuckets(GetEnabledBuckets(opts)) == GetEnabledBuckets(opts)
  {
    var r := GetEnabledBuckets(opts);
    forall x | x in r
      ensures Enabled(x)
    {
    }
    FilterAll(Enabled, r);
  }

  /** The index of the first enabled option; `|opts|` when there is none. */
  function FirstEnabled(opts: seq<BucketOption>): (k: nat)
    ensures k <= |opts|
    ensures forall j :: 0 <= j < k ==> !Enabled(opts[j])
    ensures k < |opts| ==> Enabled(opts[k])
  {
    if |opts| == 0 then 0
    else if Enabled(opts[0]) then 0
    else 1 + FirstEnabled(opts[1..])
  }

  /** The current value survives when it is non-empty (truthy) and enabled. */
  predicate KeepsCurrent(opts: seq<BucketOption>, current: Option<string>)
  {
    current.Some? && current.value != "" && HasEnabled(opts, current.value)
  }

  /**
   `select_bucket_value`: keep the current bucket, else take the default,
   else the first enabled option, else nothing.
   */
  function SelectBucketValue(opts: seq<BucketOption>, current: Option<string>, default: string): (r: Option<string>)
    ensures r.None? <==> forall i :: 0 <= i < |opts| ==> !Enabled(opts[i])
    ensures r.Some? ==> HasEnabled(opts, r.value)
    ensures KeepsCurrent(opts, current) ==> r == current
    ensures !KeepsCurrent(opts, current) && HasEnabled(opts, default) ==> r == Some(default)
    ensures !KeepsCurrent(opts, current) && !HasEnabled(opts, default) && r.Some? ==>
              FirstEnabled(opts) < |opts| && r.value == opts[FirstEnabled(opts)].value
  {
    var enabled := GetEnabledBuckets(opts);
    if KeepsCurrent(opts, current) then current
    else if HasEnabled(opts, default) then Some(default)
    else if |enabled| > 0 then
      FirstEnabledIsHead(opts);
      Some(enabled[0].value)
    else
      None
  }

  /** The head of the enabled options is the first enabled option. */
  lemma {:induction false} FirstEnabledIsHead(opts: seq<BucketOption>)
    ensures |GetEnabledBuckets(opts)| > 0 <==> FirstEnabled(opts) < |opts|
    ensures |GetEnabledBuckets(opts)| > 0 ==> GetEnabledBuckets(opts)[0] == opts[FirstEnabled(opts)]
  {
    if |opts| > 0 && !Enabled(opts[0]) {
      FirstEnabledIsHead(opts[1..]);
    }
  }

  /** Selecting again, with the selection as the current value, changes nothing. */
  lemma SelectIdempotent(opts: seq<BucketOption>, current: Option<string>, default: string)
    ensures SelectBucketValue(opts, SelectBucketValue(opts, current, default), default)
         == SelectBucketValue(opts, current, default)
  {
  }

  /** Dropping the disabled options first does not change the selection. */
  lemma SelectIgnoresDisabled(opts: seq<BucketOption>, current: Option<string>, default: string)
    ensures SelectBucketValue(GetEnabledBuckets(opts), current, default) == SelectBucketValue(opts, current, default)
  {
    var enabled := GetEnabledBuckets(opts);
    if current.Some? {
      EnabledValues(opts, current.value);
    }
    EnabledValues(opts, default);
    GetEnabledBucketsIdempotent(opts);
    FirstEnabledIsHead(opts);
    FirstEnabledIsHead(enabled);
  }

  /** One row of the joined table `prepare_plot_data` receives. */
  datatype PlotRow = PlotRow(group: Option<string>, orgAchievement: Option<real>, natAchievement: Option<real>)

  /**
   `PlotData`: the `Group` and `Achievement` columns of the data dict, and
   the sorted group list.
   */
  datatype PlotData = PlotData(groupColumn: seq<string>, achievement: seq<Option<real>>, groups: seq<string>)

  /** How many rows have group description `g`. */
  function GroupCount(rows: seq<PlotRow>, g: string): nat
  {
    if |rows| == 0 then 0
    else (if rows[0].group == Some(g) then 1 else 0) + GroupCount(rows[1..], g)
  }

  /** The non-NULL group descriptions, in row order. */
  function Groups(rows: seq<PlotRow>): (gs: seq<string>)
    ensures |gs| <= |rows|
    ensures forall g :: g in gs <==> exists i :: 0 <= i < |rows| && rows[i].group == Some(g)
    ensures forall g :: multiset(gs)[g] == GroupCount(rows, g)
  {
    if |rows| == 0 then []
    else
      var rest := Groups(rows[1..]);
      assert forall i :: 1 <= i < |rows| ==> rows[i] == rows[1..][i - 1];
      assert rows == [rows[0]] + rows[1..];
      if rows[0].group.Some? then [rows[0].group.value] + rest else rest
  }

  /** `combined_df.filter(group_description == g)`: the rows of group `g`, in order. */
  function Matching(rows: seq<PlotRow>, g: string): (m: seq<PlotRow>)
    ensures IsSubsequence(m, rows)
    ensures forall r :: r in m ==> r in rows && r.group == Some(g)
    ensures forall r :: multiset(m)[r] == if r.group == Some(g) then multiset(rows)[r] else 0
    ensures |m| == GroupCount(rows, g)
  {
    if |rows| == 0 then []
    else
      assert rows == [rows[0]] + rows[1..];
      if rows[0].group == Some(g) then [rows[0]] + Matching(rows[1..], g)
      else Matching(rows[1..], g)
  }

  /** The achievement column a lookup reads: national or organisation. */
  function Column(r: PlotRow, national: bool): Option<real>
  {
    if national then r.natAchievement else r.orgAchievement
  }

  /** Every group in `gs` matches exactly one row, so `.item()` succeeds for each. */
  predicate AllUnique(rows: seq<PlotRow>, gs: seq<string>)
  {
    forall k :: 0 <= k < |gs| ==> |Matching(rows, gs[k])| == 1
  }

  /** The position of the first group at or after `start` whose `.item()` raises; `|gs|` when none does. */
  function FirstNotUniqueFrom(rows: seq<PlotRow>, gs: seq<string>, start: nat): (k: nat)
    requires start <= |gs|
    decreases |gs| - start
    ensures start <= k <= |gs|
    ensures forall j :: start <= j < k ==> |Matching(rows, gs[j])| == 1
    ensures k < |gs| ==> |Matching(rows, gs[k])| != 1
  {
    if start == |gs| then start
    else if |Matching(rows, gs[start])| != 1 then start
    else
      var k := FirstNotUniqueFrom(rows, gs, start + 1);
      assert forall j :: start <= j < k ==> |Matching(rows, gs[j])| == 1 by {
        forall j | start <= j < k
          ensures |Matching(rows, gs[j])| == 1
        {
          if j != start {
            assert start + 1 <= j < k;
          }
        }
      }
      k
  }

  /** The position of the first group whose `.item()` raises; `|gs|` when none does. */
  function FirstNotUnique(rows: seq<PlotRow>, gs: seq<string>): (k: nat)
    ensures k <= |gs|
    ensures forall j :: 0 <= j < k ==> |Matching(rows, gs[j])| == 1
    ensures k < |gs| ==> |Matching(rows, gs[k])| != 1
  {
    FirstNotUniqueFrom(rows, gs, 0)
  }

  /** The column value of each group's single row, in the order of `gs`. */
  function Values(rows: seq<PlotRow>, gs: seq<string>, national: bool): (vs: seq<Option<real>>)
    requires AllUnique(rows, gs)
    ensures |vs| == |gs|
    ensures forall k :: 0 <= k < |gs| ==> vs[k] == Column(Matching(rows, gs[k])[0], national)
  {
    if |gs| == 0 then []
    else
      assert |Matching(rows, gs[0])| == 1;
      assert forall k :: 1 <= k < |gs| ==> gs[1..][k - 1] == gs[k];
      [Column(Matching(rows, gs[0])[0], national)] + Values(rows, gs[1..], national)
  }

  /**
   `[filter(g)[column].item() for g in gs]`. `.item()` raises unless the
   filter left exactly one row; the first such group is the error.
   */
  function Lookup(rows: seq<PlotRow>, gs: seq<string>, national: bool): (r: Result<seq<Option<real>>, string>)
    ensures r.Success? <==> AllUnique(rows, gs)
    ensures r.Success? ==> r.value == Values(rows, gs, national)
    ensures r.Failure? ==> exists k :: 0 <= k < |gs| && r.error == gs[k] && |Matching(rows, gs[k])| != 1 &&
                              forall j :: 0 <= j < k ==> |Matching(rows, gs[j])| == 1
  {
    var k := FirstNotUnique(rows, gs);
    if k < |gs| then Failure(gs[k]) else Success(Values(rows, gs, national))
  }

  /**
   `prepare_plot_data`: the non-NULL groups sorted descending, the `Group`
   column as that list twice, and the `Achievement` column as each group's
   organisation value followed by each group's national value. A group that
   does not match exactly one row makes `.item()` raise.
   */
  function PreparePlotData(rows: seq<PlotRow>): (r: Result<PlotData, string>)
    ensures r.Failure? ==> r.error in Groups(rows) && |Matching(rows, r.error)| != 1
    ensures r.Success? ==> SortedDesc(r.value.groups) && multiset(r.value.groups) == multiset(Groups(rows))
    ensures r.Success? ==> r.value.groupColumn == r.value.groups + r.value.groups
    ensures r.Success? ==> |r.value.achievement| == 2 * |r.value.groups|
    ensures r.Success? ==> forall k :: 0 <= k < |r.value.groups| ==>
              var m := Matching(rows, r.value.groups[k]);
              && |m| == 1
              && r.value.achievement[k] == m[0].orgAchievement
              && r.value.achievement[|r.value.groups| + k] == m[0].natAchievement
  {
    var groups := SortDesc(Groups(rows));
    match Lookup(rows, groups, false)
    case Failure(g) =>
      assert g in multiset(groups);
      Failure(g)
    case Success(org) =>
      var national := Lookup(rows, groups, true);
      Success(PlotData(groups + groups, org + national.value, groups))
  }

  /** No group description repeats among the non-NULL ones. */
  predicate DistinctGroups(rows: seq<PlotRow>)
  {
    forall i, j :: 0 <= i < j < |Groups(rows)| ==> Groups(rows)[i] != Groups(rows)[j]
  }

  /** A value that occurs twice has multiplicity at least two. */
  lemma RepeatMultiplicity(s: seq<string>, i: nat, j: nat)
    requires i < j < |s| && s[i] == s[j]
    ensures multiset(s)[s[i]] >= 2
  {
    assert s == s[..j] + s[j..];
    assert s[i] in s[..j];
    assert s[j] in s[j..];
  }

  /** Each group of a duplicate-free list occurs once, so it matches exactly one row. */
  lemma DistinctAllUnique(rows: seq<PlotRow>, sorted: seq<string>)
    requires DistinctGroups(rows)
    requires multiset(sorted) == multiset(Groups(rows))
    ensures AllUnique(rows, sorted)
  {
    forall k | 0 <= k < |sorted|
      ensures |Matching(rows, sorted[k])| == 1
    {
      assert sorted[k] in multiset(Groups(rows));
      DistinctMultiplicity(Groups(rows), sorted[k]);
    }
  }

  /** A repeated group matches two rows, so its `.item()` raises. */
  lemma RepeatNotUnique(rows: seq<PlotRow>, sorted: seq<string>)
    requires !DistinctGroups(rows)
    requires multiset(sorted) == multiset(Groups(rows))
    ensures !AllUnique(rows, sorted)
  {
    var gs := Groups(rows);
    var i, j :| 0 <= i < j < |gs| && gs[i] == gs[j];
    RepeatMultiplicity(gs, i, j);
    assert gs[i] in multiset(sorted);
    var k :| 0 <= k < |sorted| && sorted[k] == gs[i];
  }

  /** The plot data can be built exactly when no group description repeats. */
  lemma PlotDataSucceedsIff(rows: seq<PlotRow>)
    ensures PreparePlotData(rows).Success? <==> DistinctGroups(rows)
  {
    var sorted := SortDesc(Groups(rows));
    assert PreparePlotData(rows).Success? <==> AllUnique(rows, sorted);
    if DistinctGroups(rows) {
      DistinctAllUnique(rows, sorted);
    } else {
      RepeatNotUnique(rows, sorted);
    }
  }
}

=== FILE: strings.dfy ===
/**
 Python's string operations that the dashboard and the file finder rely on:
 the `<=` ordering of `str` (lexicographic by code point), `str.lower`,
 substring search (`in`) and suffix tests, and `str(int)`.
 */
module Strings {

  /** Python's `a <= b` on `str`: lexicographic by code point, a proper prefix first. */
  predicate Leq(a: string, b: string)
  {
    if |a| == 0 then true
    else if |b| == 0 then false
    else if a[0] < b[0] then true
    else if b[0] < a[0] then false
    else Leq(a[1..], b[1..])
  }

  /** Python's `a < b` on `str`. */
  predicate Lt(a: string, b: string)
  {
    Leq(a, b) && a != b
  }

  lemma {:induction false} LeqReflexive(a: string)
    ensures Leq(a, a)
  {
    if |a| > 0 {
      LeqReflexive(a[1..]);
    }
  }

  lemma {:induction false} LeqTotal(a: string, b: string)
    ensures Leq(a, b) || Leq(b, a)
  {
    if |a| > 0 && |b| > 0 && a[0] == b[0] {
      LeqTotal(a[1..], b[1..]);
    }
  }

  lemma {:induction false} LeqAntisymmetric(a: string, b: string)
    requires Leq(a, b) && Leq(b, a)
    ensures a == b
  {
    if |a| > 0 && |b| > 0 {
      LeqAntisymmetric(a[1..], b[1..]);
      assert a == [a[0]] + a[1..];
      assert b == [b[0]] + b[1..];
    }
  }

  lemma {:induction false} LeqTransitive(a: string, b: string, c: string)
    requires Leq(a, b) && Leq(b, c)
    ensures Leq(a, c)
  {
    if |a| > 0 && |b| > 0 && |c| > 0 && a[0] == b[0] && b[0] == c[0] {
      LeqTransitive(a[1..], b[1..], c[1..]);
    }
  }

  /** Not `a <= b` means `b < a`. */
  lemma NotLeqIsGreater(a: string, b: string)
    requires !Leq(a, b)
    ensures Lt(b, a)
  {
    LeqTotal(a, b);
    if a == b {
      LeqReflexive(a);
    }
  }

  lemma LtTransitive(a: string, b: string, c: string)
    requires Lt(a, b) && Lt(b, c)
    ensures Lt(a, c)
  {
    LeqTransitive(a, b, c);
    if a == c {
      LeqAntisymmetric(a, b);
    }
  }

  /** `str.lower` on the ASCII letters; other characters are kept. */
  function LowerChar(c: char): (r: char)
    ensures 'A' <= c <= 'Z' ==> r as int == c as int + 32
    ensures !('A' <= c <= 'Z') ==> r == c
  {
    if 'A' <= c <= 'Z' then (c as int + 32) as char else c
  }

  function Lower(s: string): (r: string)
    ensures |r| == |s|
    ensures forall i :: 0 <= i < |s| ==> r[i] == LowerChar(s[i])
  {
    if |s| == 0 then [] else [LowerChar(s[0])] + Lower(s[1..])
  }

  /** Python's `t in s` for two strings. */
  predicate Contains(s: string, t: string)
    decreases |s|
  {
    t <= s || (|s| > 0 && Contains(s[1..], t))
  }

  predicate EndsWith(s: string, t: string)
  {
    |t| <= |s| && s[|s| - |t|..] == t
  }

  /** The decimal digit of `d`. */
  function Digit(d: nat): (c: char)
    requires d < 10
    ensures '0' <= c <= '9' && c as int - '0' as int == d
  {
    ('0' as int + d) as char
  }

  /** Python's `str(n)` for an `int`. */
  function DecimalOf(n: int): (s: string)
    ensures |s| > 0
  {
    if n < 0 then "-" + NaturalDigits(-n) else NaturalDigits(n)
  }

  function NaturalDigits(n: nat): (s: string)
    ensures |s| > 0
    ensures forall i :: 0 <= i < |s| ==> '0' <= s[i] <= '9'
    decreases n
  {
    if n < 10 then [Digit(n)] else NaturalDigits(n / 10) + [Digit(n % 10)]
  }

  /** The value the digits `s` spell in decimal. */
  function DigitsValue(s: string): int
  {
    if |s| == 0 then 0 else 10 * DigitsValue(s[..|s| - 1]) + (s[|s| - 1] as int - '0' as int)
  }

  /** `NaturalDigits` writes a number that reads back as itself. */
  lemma {:induction false} NaturalDigitsRoundTrip(n: nat)
    ensures DigitsValue(NaturalDigits(n)) == n
  {
    if n >= 10 {
      NaturalDigitsRoundTrip(n / 10);
      var s := NaturalDigits(n);
      assert s[..|s| - 1] == NaturalDigits(n / 10);
    }
  }
}

=== FILE: wrappers.dfy ===
/** Small failure-carrying datatypes shared by the rest of the model. */
module Wrappers {

  /** Python's `T | None`. */
  datatype Option<+T> = None | Some(value: T)

  /** A computation that either produced a value or raised. */
  datatype Result<+T, +E> = Success(value: T) | Failure(error: E)
}
